=== FILE: README.md ===
# Location to region-code resolution, modelled in Dafny

The Climate Hazard Explorer has a comparison page that takes a free-text place name and turns it into a time series from the Climate Impact Explorer provider. It works in four steps, and this project models each of them as pure functions over immutable data, with contracts and lemmas that state what they promise:

1. **Administrative division matcher** (`ThinkHazard`).
   - Place names are normalised.
   - Each of three administrative tables (ADM2, ADM1, ADM0) is searched by exact or substring match.
   - A cascade picks the first level with an exact hit, then the first level with a substring hit.
   - Case-insensitive first-row lookups give the ISO3 code of a country name and the ISO2 code of an ISO3 code.
2. **ISO 3166-2 subdivision matcher** (`IsoMap`, `Ranking`).
   - Entries are filtered to one country.
   - Each code gets one alias: its primary name plus any translation values.
   - Aliases are kept when their raw similarity clears the threshold, then get a keyword bias of +5/−5.
   - The kept aliases are sorted best first, and the sort is stable.
   - When no alias clears the threshold, the matcher falls back to the top three entries, scored unbiased on their primary names.
   - The similarity scorer is a function parameter returning a real in 0.0..100.0. The main list keeps `int(score + bias)`, truncated toward zero; the fallback keeps the unbiased float score and sorts on it.
3. **Region-code resolver and candidate cascade** (`Comparison`).
   - A matched row is resolved to an ISO3 code and a region code, and the region code is renormalised.
   - Shape codes are extracted from the shape endpoint's parsed answer.
   - The ordered list of candidate region codes is built.
   - A fetch loop tries the candidates in order until one gives a non-empty series, and the result is then standardised.
4. **Time-series response parser** (`Cie`).
   - The region parameter is normalised.
   - The columnar answer is padded to equal length and turned into rows; the records answer is also accepted.
   - Rows without any value are dropped, and the rest are ordered by year.
   - Every other shape gives an empty frame.

All network endpoints are parameters:
- the administrative and ISO tables are arguments;
- the shape endpoint is a function from ISO3 code to parsed JSON;
- the time-series endpoint is a function from request to parsed JSON, or `None` when the call fails.

The model follows the code as written where it departs from the intended design:
- The matcher applies the threshold to the raw score, and the bias is added afterwards.
- The candidate list keeps repeats.
- The fetch loop accepts an all-zero series.
- Shape extraction collects the value of every matching key, not only the first.
- The resolver calls the subdivision matcher with threshold 80.
- The candidate list always ends with the ISO3-or-ISO2 code, then the ISO2 code, then "". The ISO2 code is added even when it equals the previous candidate.
- The alias is scored after normalising the whole concatenated alias string.

Some Python behaviour is modelled literally:
- `str.strip` uses Python's whitespace set.
- `str.replace` replaces every occurrence.
- A missing ISO2 code prints as `None` inside f-strings, so the prefix becomes `"None."`.
- `a or b` and string truthiness follow Python.
- `astype(int)` and `int()` on a float truncate toward zero.
- A records answer that has both `time` and `year` makes pandas raise. The model treats this as an error, which the fetch loop catches.

Modules: `Optional`, `Seqs` (order-preserving selection, first-occurrence de-duplication, substring search, replacement), `Numeric` (float-to-integer truncation), `Text` (character classes, case mapping, stripping), `Json`, `ThinkHazard`, `Ranking`, `IsoMap`, `Cie`, `Comparison`.

## Model

| member | source | states |
|---|---|---|
| ThinkHazard.Norm | api/thinkhazard.py:14-18 | a missing (non-string) name normalises to ""; every result is trimmed, has no upper-case letter and is pure ASCII |
| ThinkHazard.NormIdempotent | api/thinkhazard.py:14-18 | normalising a normalised name changes nothing |
| ThinkHazard.NormFixed | api/thinkhazard.py:14-18 | an ASCII name that is already trimmed and has no upper-case letter normalises to itself, so the result is tied to the input and not merely well-shaped |
| ThinkHazard.SearchLevel | api/thinkhazard.py:34-55 | no name column gives an empty frame; otherwise exactly the rows whose normalised name equals (exact) or contains (substring) the query, in table order, each restricted to the kept columns and tagged with the level; a missing code column with hits is a KeyError |
| ThinkHazard.HasHitWitness | api/thinkhazard.py:41-44 | a level has a hit exactly when it has the name column and some row's normalised name matches the query |
| ThinkHazard.SearchLevelNonEmpty | api/thinkhazard.py:46-55 | a level search is non-empty exactly when the level has a hit |
| ThinkHazard.CascadeFirstHit | api/thinkhazard.py:63-79 | one pass of the cascade returns the search of the first level with a hit, or an empty frame when no level has one |
| ThinkHazard.FindDivision | api/thinkhazard.py:58-81 | the result comes from one level only: the first of ADM2, ADM1, ADM0 with an exact hit, else the first with a substring hit, else an empty frame |
| ThinkHazard.ExactImpliesSubstring | api/thinkhazard.py:41-44 | a level with an exact hit also has a substring hit |
| ThinkHazard.ExactPassWins | api/thinkhazard.py:63-70 | some level has an exact hit exactly when the exact pass decides the result, so the substring pass only runs when no level has one |
| ThinkHazard.FindDivisionEmpty | api/thinkhazard.py:63-81 | the division search is empty exactly when no level has a substring hit |
| ThinkHazard.Iso3ByName | api/thinkhazard.py:91-96 | the ISO3 cell of the first row whose country name equals the input case-insensitively, or None when no row does; any ISO3 returned comes from a row carrying that name |
| ThinkHazard.Iso2ByIso3 | api/thinkhazard.py:99-104 | the ISO2 cell of the first row whose ISO3 equals the input case-insensitively, or None when no row does |
| IsoMap.Norm | api/iso_map.py:11-14 | None normalises to ""; the result is trimmed, has no upper-case letter and no combining mark |
| IsoMap.NormIdempotent | api/iso_map.py:11-14 | normalising twice equals normalising once |
| IsoMap.NormFixed | api/iso_map.py:11-14 | a text already trimmed, without upper-case letters and without combining marks normalises to itself |
| IsoMap.FilterCountryEntries | api/iso_map.py:23-28 | exactly the entries with a string code starting with the ISO2 code and a hyphen, in their original order |
| IsoMap.PrimaryNamesKeys | api/iso_map.py:36 | the dictionary keys are the distinct codes in first-insertion order |
| IsoMap.PrimaryNamesLast | api/iso_map.py:36 | every key holds the name of the last entry with that code, as repeated assignment leaves it |
| IsoMap.PrimaryNamesSpec | api/iso_map.py:36 | the alias dictionary has one key per distinct code, in first-occurrence order, holding the name of the last entry with that code |
| IsoMap.AddTranslationsSpec | api/iso_map.py:37-41 | adding translations keeps the keys and appends " "+value for each translation value of every entry with that code, in entry order |
| IsoMap.BuildAliasesSpec | api/iso_map.py:36-41 | the aliases have distinct codes, one per distinct code in first-occurrence order; each alias is the code's primary name followed by the suffixes of all its entries |
| IsoMap.UniqueCodeAlias | api/iso_map.py:36-41 | a code held by a single entry gets that entry's name followed by " "+value for each of its translation values |
| IsoMap.NoCodeNothing | api/iso_map.py:37-41 | a code that no entry carries collects no translation text |
| IsoMap.AnyIn | api/iso_map.py:53-55 | true exactly when some keyword occurs as a substring |
| IsoMap.Bias | api/iso_map.py:49-57 | the bias is +5, 0 or −5; +5 exactly when a boost keyword occurs and no penalty keyword does, −5 exactly the other way round, 0 when both or neither occur |
| IsoMap.Scored | api/iso_map.py:43-59 | exactly the aliases whose raw score clears the threshold, in dictionary order, each with stripped name and the raw float score plus bias, truncated toward zero by `int()` |
| IsoMap.ScoredFacts | api/iso_map.py:43-59 | scored candidates have distinct codes, and each comes from an alias that cleared the threshold on its raw score |
| IsoMap.Rough | api/iso_map.py:63-67 | one candidate per country entry, in order, with its raw primary name and its unbiased float score on that name, not truncated |
| IsoMap.FuzzyMatchRegion | api/iso_map.py:30-71 | [] for an empty query or a country without entries; otherwise a stable best-first sort of the scored aliases by their truncated whole-number scores, one per code, each cleared on its raw float score; when none clears it, the first min(3, n) of a stable best-first sort of the entries by unbiased float score: distinct entries, ties in entry order, so never empty |
| IsoMap.MainBranchFacts | api/iso_map.py:59-60 | the sorted main list is a stable sort of the scored list with distinct codes, each candidate explained by one alias |
| IsoMap.TopThree | api/iso_map.py:68-70 | the fallback is the first three of a stable best-first sort of the rough list: the right length, best first, a sub-multiset of the rough list (no entry twice), and every left-out entry scores no higher than the last kept |
| IsoMap.TakeOfSorted | api/iso_map.py:68-69 | the first three of a sorted permutation of the rough list are a sub-multiset of it and are `rough[:3]` of a stable sort |
| Ranking.Insert | api/iso_map.py:60 | inserting into a best-first list keeps it best first, one longer, and adds exactly the new candidate to its multiset |
| Ranking.InsertStable | api/iso_map.py:60 | inserting a candidate into a best-first list keeps, for each score, the candidates with that score in the order of the new candidate followed by the list |
| Ranking.SortDesc | api/iso_map.py:60 | the result is a permutation of the input, sorted by descending score, that keeps the input order within each score (stable) |
| Ranking.SortKeepsDistinctCodes | api/iso_map.py:60 | sorting keeps the codes distinct |
| Cie.RegionNorm | api/cie.py:18 | the region parameter contains no hyphen and no lower-case letter, and is trimmed |
| Cie.RegionNormFixed | api/cie.py:18 | a region that is already hyphen-free, upper-case and trimmed is sent unchanged |
| Cie.RegionNormIdempotent | api/cie.py:18 | normalising a region twice gives the same as normalising it once |
| Cie.Request | api/cie.py:18-27 | the request carries the given country, variable and scenario, the normalised hyphen-free region, season "annual", spatial aggregation "area" and format json |
| Cie.ToFloat | api/cie.py:42-46 | `float(v)`: a number is itself, a boolean is 1.0 or 0.0, a string is parsed, and null, a list or an object fail to convert |
| Cie.ToFloatList | api/cie.py:38-47 | [] for a non-list; otherwise one value per item, missing exactly where the item does not convert |
| Cie.Pad | api/cie.py:57 | padding gives the target length, keeps the list as a prefix and fills the rest with missing values |
| Cie.ColumnRows | api/cie.py:55-65 | as many rows as the longest array, row i holding each array's i-th value or missing past its end |
| Cie.SortByYear | api/cie.py:67 | ascending by year with missing years last, and a permutation of the input |
| Cie.Tidy | api/cie.py:66-67 | year-ordered, a permutation of exactly the rows with some lower, median or upper value, and every kept row has one |
| Cie.AnyHasKey | api/cie.py:75 | true exactly when some object record has the key |
| Cie.RecordRows | api/cie.py:73-78 | one row per record, the year read from `time` when any record has it; both `time` and `year` present makes pandas raise |
| Cie.ParseBand | api/cie.py:49-86 | a failed call, a non-object, or an object with neither form gives an empty frame; the columnar form gives the padded rows with some value and the records form gives the record rows with some value, in year order in both cases; only the records form can raise |
| Cie.GetCieBand | api/cie.py:18-36 | a failed provider call gives an empty frame; any frame is year-ordered and every row has a value |
| Comparison.CleanedVar | pages/3_Comparison_Tool.py:52 | a known variable id maps to its label; any other id maps to itself |
| Comparison.CleanedScen | pages/3_Comparison_Tool.py:53 | a known scenario id maps to its label; any other id maps to itself |
| Comparison.NormalizeRegionCode | pages/3_Comparison_Tool.py:56-67 | a fallback name with a letter gives ISO2 + "." + its two-letter abbreviation whatever the candidate; otherwise a candidate of shape `[A-Z]{2}\.[A-Z0-9]{1,3}` (after upper-casing and hyphens to dots) is kept, a two-letter candidate is prefixed by ISO2, anything else gives the bare ISO2 |
| Comparison.ChooseShape | pages/3_Comparison_Tool.py:60-67 | with a two-letter country code, the normaliser's decision is a well-formed region code or the bare country code |
| Comparison.NormalizeRegionCodeShape | pages/3_Comparison_Tool.py:56-67 | with a two-letter upper-case ISO2, the normalised code is a well-formed region code or the bare ISO2 |
| Comparison.Best | pages/3_Comparison_Tool.py:77 | the match target is the ADM2 name, else ADM1, else ADM0, else ""; it is "" exactly when none of the three is non-empty |
| Comparison.RowIso3 | pages/3_Comparison_Tool.py:70-72 | the row's own ISO3 when truthy; otherwise an ISO3 found only on a country row with the row's country name, and None when no country row has that name |
| Comparison.MatchedCode | pages/3_Comparison_Tool.py:80-83 | a code exactly when there is a match; it is the first match's code upper-cased, of the same length and with no lower-case letter |
| Comparison.FromMatch | pages/3_Comparison_Tool.py:85-91 | the rewritten code is either the matched code with hyphens turned into dots or ISO2 + "." + the target's abbreviation, the latter only when the target has a letter; it holds no hyphen unless the ISO2 text does |
| Comparison.DotJoin | pages/3_Comparison_Tool.py:86 | a match `p-x` with hyphen-free parts becomes `p.x` |
| Comparison.SuffixOf | pages/3_Comparison_Tool.py:86-87 | for a match `ISO2-x` with no hyphen or dot in `x`, the suffix the code tests is exactly `x` |
| Comparison.NumericSuffixAbbreviated | pages/3_Comparison_Tool.py:85-91 | a match `ISO2-<digits>` for a target with a letter becomes ISO2 + "." + the target's abbreviation, so no digit follows the dot |
| Comparison.OtherSuffixKept | pages/3_Comparison_Tool.py:85-91 | a match `ISO2-x` whose suffix is not all digits is kept as `ISO2.x` |
| Comparison.ResolveCieRegionCode | pages/3_Comparison_Tool.py:69-95 | unresolved exactly when the row has no ISO3 and the name lookup finds none; otherwise a fuzzy match (threshold 80) gives the rewritten matched code, and no match gives ISO2 + "." + abbreviation of the target, or the ISO3 when the target has no letter |
| Comparison.ResolvedCodeNonEmpty | pages/3_Comparison_Tool.py:85-94 | a resolved code and its ISO3 are never empty |
| Comparison.BuildRegionInfo | pages/3_Comparison_Tool.py:97-120 | name and display are both the ADM2/ADM1/ADM0 name; the ISO2 is looked up from the ISO3; the code is renormalised with the ADM1-else-ADM2 fallback only when it differs from the ISO3; no ISO3 gives no code |
| Comparison.FallbackOverridesMatch | pages/3_Comparison_Tool.py:101-106 | when the code is renormalised and the fallback name has a letter, the code is ISO2 + "." + the fallback's abbreviation, whatever the fuzzy match returned |
| Comparison.RegionInfoShape | pages/3_Comparison_Tool.py:101-106 | with a two-letter ISO2, a renormalised code is well formed or the bare ISO2 |
| Comparison.ResolveLocation | pages/3_Comparison_Tool.py:122-130 | a lookup error or an empty search gives nothing; otherwise the region record of the first row found |
| Comparison.ResolveLocationNone | pages/3_Comparison_Tool.py:122-130 | a name fails to resolve exactly when the lookup errs or no level holds it even as a substring |
| Comparison.KeyCodesMembership | pages/3_Comparison_Tool.py:146-149 | the codes of one item are exactly the upper-cased string values under any of the shape keys |
| Comparison.AllCodesMembership | pages/3_Comparison_Tool.py:143-149 | the collected codes are exactly those some object item yields |
| Comparison.ShapeCodes | pages/3_Comparison_Tool.py:142-150 | [] for a non-list answer; otherwise distinct codes, exactly the upper-cased string values under any shape key of any object item, ordered by where each first occurs in item-then-key order |
| Comparison.ShapeCodesEveryKey | pages/3_Comparison_Tool.py:144-149 | any object item with string `code` and `id` contributes both upper-cased values, not only the first key found |
| Comparison.ShapeCodesFirst | pages/3_Comparison_Tool.py:143-150 | the upper-cased `code` of the first item is the first shape code |
| Comparison.SecondSegment | pages/3_Comparison_Tool.py:166 | the second hyphen segment contains no hyphen |
| Comparison.SecondSegmentSplit | pages/3_Comparison_Tool.py:166 | for `a-b…` with hyphen-free `a` and `b`, the second segment is `b` |
| Comparison.CodeCandidates | pages/3_Comparison_Tool.py:162-167 | nothing for an empty code; otherwise the code, followed by its second hyphen segment and its dotted form only when it contains a hyphen |
| Comparison.AbbrevCandidates | pages/3_Comparison_Tool.py:169-171 | ISO2-abbr then ISO2.abbr when both the ISO2 and the abbreviation are non-empty, otherwise nothing |
| Comparison.Candidates | pages/3_Comparison_Tool.py:161-176 | the code-derived candidates, then the abbreviation pair, then the shape codes in order, then ISO3-else-ISO2, then ISO2, and finally "" |
| Comparison.CandidatesMayRepeat | pages/3_Comparison_Tool.py:161-176 | repeats are kept: a hyphen-free code equal to ISO2 + "." + the name's abbreviation is both the first and the third candidate |
| Comparison.FetchFirst | pages/3_Comparison_Tool.py:178-193 | tried is a prefix of the stringified candidates; on success the frame is the first usable one, its candidate is returned and tried ends with it; otherwise every candidate was tried, all unusable, and the chosen region is "" |
| Comparison.LoadCie | pages/3_Comparison_Tool.py:152-193 | the loop runs over the candidates built from the record and its shape codes, with ISO3-else-ISO2 as country; a returned frame is the first usable one (every earlier candidate gave none) and is year-ordered with values; on failure every candidate gave no usable frame and tried ends with "" |
| Numeric.Trunc | pages/3_Comparison_Tool.py:212 | the integer year lies within one of the float, on the side of zero |
| Comparison.Standardize | pages/3_Comparison_Tool.py:196-213 | exactly the rows with both a year and a median, in order, as (truncated year, median) under the given column name |
| Comparison.StandardizeSorted | pages/3_Comparison_Tool.py:196-213 | a frame ordered by year standardises to non-decreasing years |
| Seqs.Dedup | pages/3_Comparison_Tool.py:150 | the result has no repeats and holds exactly the values of the input |
| Seqs.DedupOrder | pages/3_Comparison_Tool.py:150 | the result lists the values in the order of their first occurrences in the input, as `dict.fromkeys` keeps them |
| Seqs.DedupKeepsHead | pages/3_Comparison_Tool.py:150 | the first element of the input stays first |
| Seqs.ReplaceSingle | pages/3_Comparison_Tool.py:86 | replacing one character by another keeps the length and substitutes pointwise |
| Seqs.Replace | pages/3_Comparison_Tool.py:86-87 | text with no occurrence of the pattern is returned unchanged, and replacement by text of the same length keeps the length |
| Seqs.FilterSwap | api/iso_map.py:60 | two neighbours that are not both kept can swap without changing what filtering keeps, the step behind stability |
| Seqs.Contains | api/thinkhazard.py:44 | true exactly when the needle occurs at some position |
| Text.Strip | api/thinkhazard.py:18 | the result is a window of the input with only whitespace outside it and no whitespace at either end |
| Text.StripUnique | api/thinkhazard.py:18 | that window is unique: any trimmed window with only whitespace around it is the stripped text |
| Text.AbbrevEmpty | pages/3_Comparison_Tool.py:89-94 | the two-letter abbreviation is empty exactly when the text has no letter |
| Text.Abbrev | pages/3_Comparison_Tool.py:60 | the abbreviation is the first two letters of the text (fewer if it has fewer), upper-cased |

## Left out

- Unicode NFKD decomposition in both `_norm` functions is not modelled. Input is taken as already decomposed: `ThinkHazard.Norm` drops non-ASCII characters, and `IsoMap.Norm` drops characters in the Unicode combining-mark blocks (U+0300–036F, 1AB0–1AFF, 1DC0–1DFF, 20D0–20FF, FE20–FE2F). This approximates `unicodedata.combining`.
- `str.lower`, `str.upper`, `str.isalpha` and `str.isdigit` are modelled on ASCII only. Non-ASCII letters are neither cased nor counted as letters.
- `ThinkHazard.SearchLevel`: pandas `str.contains` reads the query as a regular expression. The model searches for it literally, which differs only for queries containing regex metacharacters.
- Table cells are strings. A missing cell stands for NaN or a non-string value. NaN is truthy in Python but is treated as absent in `Best`, `RowIso3` and `FallbackName`.
- ThinkHazard.Iso2ByIso3: an ISO2 cell that pandas reads as NaN (the literal `NA` of Namibia, under `read_csv` defaults) gives None here. The source returns NaN, which then formats as "nan" and counts as truthy. So for such a country, `ResolveCieRegionCode` formats the no-match code with "None." where the source writes "nan.". `NormalizeRegionCode` gives "." + abbreviation instead of "NAN." + abbreviation, and `AbbrevCandidates` adds nothing instead of the "nan-XX" and "nan.XX" candidates.
- ThinkHazard.Iso3ByName, ThinkHazard.Iso2ByIso3: the country table must carry the columns each lookup reads (ADM0_NAME and ISO3166_a3; ISO3166_a3 and ISO3166_a2). The KeyError pandas raises without them is not modelled; it would escape `resolve_location`, whose handler covers only `find_division`. The table is the fixed country dataset, which has these columns.
- Float parsing of JSON strings is a parameter (`StrParser`). Numbers are reals, with no NaN arithmetic.
- `Cie.SortByYear` does not assume pandas sort stability: it promises only the order and the permutation.
- `Cie.RecordRows`: a records list whose items are not objects is read as rows with every value missing.
- ISO 3166-2 entry names and translation values are strings, and a missing name is "". A non-string translation value makes the matcher raise (`str + value`), and that case is not modelled.
- IsoMap.FuzzyMatchRegion: a `null` entry name is not modelled. In the source it raises only in two cases: when an entry with that code has a non-empty translations mapping (`None += " " + value`, api/iso_map.py:36-39), or when its alias clears the threshold (`nm.strip()`, api/iso_map.py:47). Otherwise `_norm(None)` is "", the alias is scored as an empty name, and the fallback can return the entry with name None. The model would instead return name "", with the same score and code.
- The fuzzy scorer `token_sort_ratio` is a parameter returning a real in 0.0..100.0. How it tokenises, sorts and compares the two strings is not modelled.
- Network calls, raised HTTP errors, timeouts, `st.cache_data` and the `print` logging are left out. `load_admin_data` and `load_iso3166_2` become arguments. The shape and time-series endpoints become function parameters, and any failure of theirs is a `None` answer.
- `get_hazards` is left out: it is only an HTTP fetch.
- The Streamlit page flow, the widgets, the chart, the merge of the two series, the year slider, `metric_val` and the CSV download are left out: they only display results.
- `Comparison.Standardize`: the `time` and missing-`median` branches of `standardize` are not modelled. They are unreachable for frames produced by `get_cie_band`, which always carry `year`, `lower`, `median` and `upper`.
- The static About page is left out: it has no logic.

=== FILE: cie.dfy ===
/**
 The time-series client: the region parameter it sends and the parsing of
 the provider's answer into rows of (year, lower, median, upper). The HTTP
 call is a provider function from request to parsed JSON (None when the
 transport or the JSON decoding fails); numbers are kept as optional reals,
 None standing for a missing (NaN) value.
 */
module Cie {
  import opened Optional
  import opened Seqs
  import opened Text
  import opened Json

  /** The query parameters of one time-series request. */
  datatype Query = Query(
    iso: Option<string>, region: string, scenario: string, variable: string,
    season: string, aggregation: string, format: string)

  /** The provider: a request's parsed JSON answer, or None on any transport or decoding failure. */
  type Provider = Query -> Option<Json>

  /** Python's `float(s)` on a string, opaque: None when it raises. */
  type StrParser = string -> Option<real>

  /** A value that may be missing (NaN). */
  type Value = Option<real>

  datatype Row = Row(year: Value, lower: Value, median: Value, upper: Value)

  /** The parsed frame, or a pandas error that the caller has to catch. */
  datatype Band = Frame(rows: seq<Row>) | Raised

  const DefaultSeason := "annual"
  const DefaultAggregation := "area"

  /** A character the region parameter may hold: neither a hyphen nor a lower-case letter. */
  predicate RegionChar(c: char) {
    c != '-' && !IsLowerAscii(c)
  }

  /** The region parameter: hyphens become dots, then upper-cased and trimmed. */
  function RegionNorm(region: string): (r: string)
    ensures '-' !in r
    ensures forall i :: 0 <= i < |r| ==> !IsLowerAscii(r[i])
    ensures Trimmed(r)
  {
    var d := Replace(region, "-", ".");
    ReplaceSingleRemoves(region, '-', '.');
    var u := Upper(d);
    UpperRegionChars(d);
    StripKeeps(u, RegionChar);
    RegionCharsOnly(Strip(u));
    Strip(u)
  }

  /** Upper-casing a hyphen-free text leaves only region characters. */
  lemma UpperRegionChars(d: string)
    requires '-' !in d
    ensures forall i :: 0 <= i < |Upper(d)| ==> RegionChar(Upper(d)[i])
  {
    var u := Upper(d);
    UpperFacts(d);
    forall i | 0 <= i < |u| ensures RegionChar(u[i]) {
      assert u[i] == UpperChar(d[i]);
      assert d[i] in d;
    }
  }

  lemma RegionCharsOnly(r: string)
    requires forall i :: 0 <= i < |r| ==> RegionChar(r[i])
    ensures '-' !in r
    ensures forall i :: 0 <= i < |r| ==> !IsLowerAscii(r[i])
  {
    forall i | 0 <= i < |r| ensures r[i] != '-' {
      assert RegionChar(r[i]);
    }
  }

  /** A region that is already trimmed, upper-case and hyphen-free is sent as it is. */
  lemma RegionNormFixed(region: string)
    requires '-' !in region && NoLower(region) && Trimmed(region)
    ensures RegionNorm(region) == region
  {
    ReplaceSingle(region, '-', '.');
    assert Replace(region, "-", ".") == region;
    UpperIdentity(region);
    StripTrimmed(region);
  }

  /** Normalising a region twice is the same as normalising it once. */
  lemma RegionNormIdempotent(region: string)
    ensures RegionNorm(RegionNorm(region)) == RegionNorm(region)
  {
    RegionNormFixed(RegionNorm(region));
  }

  /** The request `get_cie_band` sends: annual, area-aggregated, as JSON. */
  function Request(iso: Option<string>, region: string, variable: string, scenario: string): (q: Query)
    ensures q.region == RegionNorm(region) && '-' !in q.region
    ensures q.iso == iso && q.variable == variable && q.scenario == scenario
    ensures q.season == "annual" && q.aggregation == "area" && q.format == "json"
  {
    Query(iso, RegionNorm(region), scenario, variable, DefaultSeason, DefaultAggregation, "json")
  }

  /**
   Python's `float(v)` on a JSON value: a number is itself, a boolean is 1.0
   or 0.0, a string is parsed, and null, a list or an object raise (None).
   */
  function ToFloat(v: Json, parse: StrParser): (r: Value)
    ensures v.JNum? ==> r == Some(v.n)
    ensures v.JBool? ==> r == Some(if v.b then 1.0 else 0.0)
    ensures v.JStr? ==> r == parse(v.s)
    ensures v.JNull? || v.JArr? || v.JObj? ==> r.None?
  {
    match v
    case JNum(n) => Some(n)
    case JBool(b) => Some(if b then 1.0 else 0.0)
    case JStr(s) => parse(s)
    case _ => None
  }

  /** `to_float_list`: [] for a non-list, else one value per item, missing where unparseable. */
  function ToFloatList(x: Json, parse: StrParser): (r: seq<Value>)
    ensures !x.JArr? ==> r == []
    ensures x.JArr? ==> |r| == |x.items|
    ensures x.JArr? ==> forall i :: 0 <= i < |r| ==>
      (r[i].None? <==> ToFloat(x.items[i], parse).None?) && (r[i].Some? ==> r[i] == ToFloat(x.items[i], parse))
  {
    match x
    case JArr(items) => seq(|items|, i requires 0 <= i < |items| => ToFloat(items[i], parse))
    case _ => []
  }

  /** The value at `i`, or missing past the end of the list. */
  function ValueAt(l: seq<Value>, i: nat): Value {
    if i < |l| then l[i] else None
  }

  /** `lst + [nan] * (n - len(lst))`. */
  function Pad(l: seq<Value>, n: nat): (r: seq<Value>)
    requires |l| <= n
    ensures |r| == n
    ensures r[..|l|] == l
    ensures forall i :: |l| <= i < n ==> r[i].None?
  {
    l + seq(n - |l|, _ => None)
  }

  function Max4(a: nat, b: nat, c: nat, d: nat): (m: nat)
    ensures a <= m && b <= m && c <= m && d <= m
    ensures m == a || m == b || m == c || m == d
  {
    var ab := if a >= b then a else b;
    var cd := if c >= d then c else d;
    if ab >= cd then ab else cd
  }

  /** The four columnar arrays of the answer. */
  datatype Columns = Columns(years: seq<Value>, lower: seq<Value>, median: seq<Value>, upper: seq<Value>)

  function ColumnsOf(fields: map<string, Json>, parse: StrParser): Columns {
    Columns(
      ToFloatList(Get(fields, "year", JArr([])), parse),
      ToFloatList(Get(fields, "lower", JArr([])), parse),
      ToFloatList(Get(fields, "median", JArr([])), parse),
      ToFloatList(Get(fields, "upper", JArr([])), parse))
  }

  predicate AnyColumn(c: Columns) {
    |c.years| > 0 || |c.lower| > 0 || |c.median| > 0 || |c.upper| > 0
  }

  /**
   The frame built from the padded columns: as many rows as the longest
   array, a shorter array reading as missing past its end.
   */
  function ColumnRows(c: Columns): (r: seq<Row>)
    ensures |r| == Max4(|c.years|, |c.lower|, |c.median|, |c.upper|)
    ensures forall i :: 0 <= i < |r| ==>
      r[i] == Row(ValueAt(c.years, i), ValueAt(c.lower, i), ValueAt(c.median, i), ValueAt(c.upper, i))
  {
    var n := Max4(|c.years|, |c.lower|, |c.median|, |c.upper|);
    var y, lo, me, up := Pad(c.years, n), Pad(c.lower, n), Pad(c.median, n), Pad(c.upper, n);
    assert forall i :: 0 <= i < n ==>
      y[i] == ValueAt(c.years, i) && lo[i] == ValueAt(c.lower, i) &&
      me[i] == ValueAt(c.median, i) && up[i] == ValueAt(c.upper, i) by {
      forall i | 0 <= i < n ensures y[i] == ValueAt(c.years, i) && lo[i] == ValueAt(c.lower, i)
        && me[i] == ValueAt(c.median, i) && up[i] == ValueAt(c.upper, i) {
        if i < |c.years| { assert y[i] == y[..|c.years|][i]; }
        if i < |c.lower| { assert lo[i] == lo[..|c.lower|][i]; }
        if i < |c.median| { assert me[i] == me[..|c.median|][i]; }
        if i < |c.upper| { assert up[i] == up[..|c.upper|][i]; }
      }
    }
    seq(n, i requires 0 <= i < n => Row(y[i], lo[i], me[i], up[i]))
  }

  /** A row `dropna(how="all", subset=[median, lower, upper])` keeps. */
  predicate HasValue(r: Row) {
    r.lower.Some? || r.median.Some? || r.upper.Some?
  }

  /** The order `sort_values("year")` produces: ascending, missing years last. */
  predicate YearBefore(a: Value, b: Value) {
    match (a, b)
    case (Some(x), Some(y)) => x <= y
    case (Some(_), None) => true
    case (None, None) => true
    case (None, Some(_)) => false
  }

  predicate SortedByYear(s: seq<Row>) {
    forall i, j :: 0 <= i < j < |s| ==> YearBefore(s[i].year, s[j].year)
  }

  function InsertByYear(x: Row, t: seq<Row>): (r: seq<Row>)
    requires SortedByYear(t)
    ensures SortedByYear(r)
    ensures multiset(r) == multiset(t) + multiset{x}
    decreases |t|
  {
    if |t| == 0 || YearBefore(x.year, t[0].year) then [x] + t
    else
      var rest := InsertByYear(x, t[1..]);
      HeadBeforeRest(x, t, rest);
      assert t == [t[0]] + t[1..];
      [t[0]] + rest
  }

  /** After `x` is inserted into the tail, the old head still comes first. */
  lemma HeadBeforeRest(x: Row, t: seq<Row>, rest: seq<Row>)
    requires SortedByYear(t) && |t| > 0 && !YearBefore(x.year, t[0].year)
    requires multiset(rest) == multiset(t[1..]) + multiset{x}
    ensures forall k :: 0 <= k < |rest| ==> YearBefore(t[0].year, rest[k].year)
  {
    forall k | 0 <= k < |rest| ensures YearBefore(t[0].year, rest[k].year) {
      assert rest[k] in multiset(rest);
      if rest[k] != x {
        assert rest[k] in multiset(t[1..]);
        var j :| 0 <= j < |t[1..]| && t[1..][j] == rest[k];
        assert t[j + 1] == rest[k];
      }
    }
  }

  /** `sort_values("year")`: some ordering by year; no stability is promised. */
  function SortByYear(s: seq<Row>): (r: seq<Row>)
    ensures SortedByYear(r)
    ensures multiset(r) == multiset(s)
    decreases |s|
  {
    if |s| == 0 then []
    else
      assert s == [s[0]] + s[1..];
      InsertByYear(s[0], SortByYear(s[1..]))
  }

  /** Drops the rows without any value, then sorts by year. */
  function Tidy(rows: seq<Row>): (r: seq<Row>)
    ensures SortedByYear(r)
    ensures multiset(r) == multiset(Filter(rows, HasValue))
    ensures forall i :: 0 <= i < |r| ==> HasValue(r[i])
  {
    var kept := Filter(rows, HasValue);
    var r := SortByYear(kept);
    forall i | 0 <= i < |r| ensures HasValue(r[i]) {
      assert r[i] in multiset(kept);
      var k :| 0 <= k < |kept| && kept[k] == r[i];
    }
    r
  }

  /** Some record (a JSON object) of the list has the key. */
  function AnyHasKey(items: seq<Json>, key: string): (r: bool)
    ensures r <==> exists i :: 0 <= i < |items| && items[i].JObj? && key in items[i].fields
    decreases |items|
  {
    if |items| == 0 then false
    else (items[0].JObj? && key in items[0].fields) || AnyHasKey(items[1..], key)
  }

  /** One record as a row; a record that is not an object has every value missing. */
  function RecordRow(item: Json, yearKey: string, parse: StrParser): Row {
    match item
    case JObj(f) =>
      Row(FieldValue(f, yearKey, parse), FieldValue(f, "lower", parse),
          FieldValue(f, "median", parse), FieldValue(f, "upper", parse))
    case _ => Row(None, None, None, None)
  }

  function FieldValue(f: map<string, Json>, key: string, parse: StrParser): Value {
    if key in f then ToFloat(f[key], parse) else None
  }

  /**
   The records form: one row per record, `time` read as the year when any
   record has it; both a `time` and a `year` column make pandas raise.
   */
  function RecordRows(items: seq<Json>, parse: StrParser): (r: Band)
    ensures r.Raised? <==> AnyHasKey(items, "time") && AnyHasKey(items, "year")
    ensures r.Frame? ==> |r.rows| == |items| && forall i :: 0 <= i < |items| ==>
      r.rows[i] == RecordRow(items[i], if AnyHasKey(items, "time") then "time" else "year", parse)
  {
    var hasTime := AnyHasKey(items, "time");
    if hasTime && AnyHasKey(items, "year") then Raised
    else
      var key := if hasTime then "time" else "year";
      Frame(seq(|items|, i requires 0 <= i < |items| => RecordRow(items[i], key, parse)))
  }

  /** The answer is in records form: an object whose four columnar arrays are empty and whose `data` is a list. */
  predicate RecordsShape(js: Json, parse: StrParser) {
    && js.JObj?
    && !AnyColumn(ColumnsOf(js.fields, parse))
    && "data" in js.fields && js.fields["data"].JArr?
  }

  /**
   The parse of `get_cie_band`. A failed request, or any shape other than
   the columnar or the records form, gives an empty frame; otherwise the
   rows with some value, ordered by year.
   */
  function ParseBand(response: Option<Json>, parse: StrParser): (r: Band)
    ensures response.None? ==> r == Frame([])
    ensures response.Some? && !response.value.JObj? ==> r == Frame([])
    ensures r.Frame? ==> SortedByYear(r.rows) && forall i :: 0 <= i < |r.rows| ==> HasValue(r.rows[i])
    ensures response.Some? && response.value.JObj? && AnyColumn(ColumnsOf(response.value.fields, parse)) ==>
      r.Frame? && multiset(r.rows) == multiset(Filter(ColumnRows(ColumnsOf(response.value.fields, parse)), HasValue))
    ensures response.Some? && RecordsShape(response.value, parse) ==>
      var rec := RecordRows(response.value.fields["data"].items, parse);
      (rec.Raised? ==> r.Raised?) && (rec.Frame? ==> r.Frame? && multiset(r.rows) == multiset(Filter(rec.rows, HasValue)))
    ensures (response.Some? && response.value.JObj? && !AnyColumn(ColumnsOf(response.value.fields, parse))
             && !RecordsShape(response.value, parse)) ==> r == Frame([])
    ensures r.Raised? ==> response.Some? && RecordsShape(response.value, parse)
  {
    match response
    case None => Frame([])
    case Some(js) =>
      match js
      case JObj(fields) =>
        var cols := ColumnsOf(fields, parse);
        if AnyColumn(cols) then Frame(Tidy(ColumnRows(cols)))
        else if "data" in fields && fields["data"].JArr? then
          match RecordRows(fields["data"].items, parse)
          case Raised => Raised
          case Frame(rows) => Frame(Tidy(rows))
        else Frame([])
      case _ => Frame([])
  }

  /** `get_cie_band`: builds the request, asks the provider, parses the answer. */
  function GetCieBand(provider: Provider, iso: Option<string>, region: string, variable: string,
                      scenario: string, parse: StrParser): (r: Band)
    ensures provider(Request(iso, region, variable, scenario)).None? ==> r == Frame([])
    ensures r.Frame? ==> SortedByYear(r.rows) && forall i :: 0 <= i < |r.rows| ==> HasValue(r.rows[i])
  {
    ParseBand(provider(Request(iso, region, variable, scenario)), parse)
  }
}

=== FILE: comparison.dfy ===
/**
 The comparison page's resolution pipeline: from a matched administrative
 row to a provider region code, the ordered list of candidate codes, and the
 try-until-first-non-empty fetch loop. The ISO table, the scorer and both
 provider endpoints are parameters.
 */
module Comparison {
  import opened Optional
  import opened Seqs
  import opened Text
  import opened Json
  import opened Numeric
  import ThinkHazard
  import IsoMap
  import Ranking
  import Cie

  type Row = ThinkHazard.Row

  /** The threshold the resolver passes to the fuzzy matcher. */
  const ResolverThreshold := 80

  const VarLabels: map<string, string> := map[
    "leh" := "Heatwaves (land fraction exposed)",
    "peh" := "Heatwaves (population exposed)",
    "fldfrc" := "River floods (land fraction exposed)",
    "flddph" := "River floods (max depth)",
    "lec" := "Crop failure (land fraction exposed)",
    "pec" := "Crop failure (population exposed)",
    "lew" := "Wildfires (land fraction exposed)",
    "pew" := "Wildfires (population exposed)",
    "ec1" := "Labour productivity loss (heat stress)",
    "ec2" := "Annual flood damage",
    "ec3" := "Cyclone damage (annual expected)",
    "ec4" := "Cyclone damage (1-in-100 year)",
    "prAdjust" := "Precipitation (expressed in millimeter per day)",
    "tasAdjust" := "Air temperature (mean)",
    "tasmaxAdjust" := "Air temperature (daily max)",
    "tasminAdjust" := "Air temperature (daily min)"
  ]

  const ScenLabels: map<string, string> := map[
    "h_cpol" := "NGFS current policies",
    "o_1p5c" := "NGFS net-zero",
    "d_delfrag" := "NGFS delayed 2°C",
    "cat_current" := "CAT current policies",
    "rcp26" := "RCP2.6",
    "rcp45" := "RCP4.5",
    "rcp60" := "RCP6.0",
    "rcp85" := "RCP8.5"
  ]

  /** `cleaned_var`: the label of a known variable id, else the id itself. */
  function CleanedVar(v: string): (r: string)
    ensures v in VarLabels ==> r == VarLabels[v]
    ensures v !in VarLabels ==> r == v
  {
    if v in VarLabels then VarLabels[v] else v
  }

  /** `cleaned_scen`: the label of a known scenario id, else the id itself. */
  function CleanedScen(s: string): (r: string)
    ensures s in ScenLabels ==> r == ScenLabels[s]
    ensures s !in ScenLabels ==> r == s
  {
    if s in ScenLabels then ScenLabels[s] else s
  }

  /** Python truthiness of an optional string: present and non-empty. */
  predicate Truthy(o: Option<string>) {
    o.Some? && o.value != ""
  }

  /** Python's `a or b`. */
  function Or(a: Option<string>, b: Option<string>): Option<string> {
    if Truthy(a) then a else b
  }

  /** `str(x)` and f-string formatting: None prints as "None". */
  function PyStr(o: Option<string>): string {
    match o
    case Some(s) => s
    case None => "None"
  }

  /** `str(x or "")`. */
  function OrEmpty(o: Option<string>): string {
    match o
    case Some(s) => s
    case None => ""
  }

  predicate HasLetter(s: string) {
    exists i :: 0 <= i < |s| && IsLetter(s[i])
  }

  /** `[A-Z]{2}\.[A-Z0-9]{1,3}` matched against the whole string. */
  predicate RegionShape(s: string) {
    && 4 <= |s| <= 6
    && IsUpperAscii(s[0]) && IsUpperAscii(s[1]) && s[2] == '.'
    && forall i :: 3 <= i < |s| ==> IsUpperAscii(s[i]) || IsDigit(s[i])
  }

  /** `[A-Z]{2}` matched against the whole string. */
  predicate TwoUpper(s: string) {
    |s| == 2 && IsUpperAscii(s[0]) && IsUpperAscii(s[1])
  }

  /** The decision of `_normalize_region_code` on its cleaned-up inputs. */
  function ChooseRegionCode(c: string, cand: string, fb: string): (r: string)
    ensures HasLetter(fb) ==> r == c + "." + Abbrev(fb) && 1 <= |Abbrev(fb)| <= 2
    ensures !HasLetter(fb) && RegionShape(cand) ==> r == cand
    ensures !HasLetter(fb) && !RegionShape(cand) && TwoUpper(cand) ==> r == c + "." + cand
    ensures !HasLetter(fb) && !RegionShape(cand) && !TwoUpper(cand) ==> r == c
  {
    var abbr := Abbrev(fb);
    AbbrevEmpty(fb);
    if abbr != "" then c + "." + abbr
    else if RegionShape(cand) then cand
    else if TwoUpper(cand) then c + "." + cand
    else c
  }

  /**
   What `_normalize_region_code` promises. A fallback name with a letter decides the code
   (country plus its two-letter abbreviation) whatever the candidate;
   otherwise a well-formed candidate is kept, a bare two-letter one is
   prefixed with the country, and anything else gives the country alone.
   */
  ghost predicate NormalizeSpec(iso2: Option<string>, candidate: Option<string>, fallback: Option<string>, r: string) {
    var c := Upper(Strip(OrEmpty(iso2)));
    var cand := Replace(Upper(Strip(OrEmpty(candidate))), "-", ".");
    var fb := Strip(OrEmpty(fallback));
    && (HasLetter(fb) ==> r == c + "." + Abbrev(fb) && 1 <= |Abbrev(fb)| <= 2)
    && (!HasLetter(fb) && RegionShape(cand) ==> r == cand)
    && (!HasLetter(fb) && !RegionShape(cand) && TwoUpper(cand) ==> r == c + "." + cand)
    && (!HasLetter(fb) && !RegionShape(cand) && !TwoUpper(cand) ==> r == c)
  }

  /** `_normalize_region_code`. */
  function NormalizeRegionCode(iso2: Option<string>, candidate: Option<string>, fallback: Option<string>)
    : (r: string)
    ensures NormalizeSpec(iso2, candidate, fallback, r)
  {
    ChooseRegionCode(Upper(Strip(OrEmpty(iso2))), Replace(Upper(Strip(OrEmpty(candidate))), "-", "."),
                     Strip(OrEmpty(fallback)))
  }

  /** With a two-letter country code, the result is a well-formed region code or the bare country. */
  lemma NormalizeRegionCodeShape(iso2: string, candidate: Option<string>, fallback: Option<string>)
    requires TwoUpper(iso2)
    ensures var r := NormalizeRegionCode(Some(iso2), candidate, fallback);
      RegionShape(r) || r == iso2
  {
    var cand := Replace(Upper(Strip(OrEmpty(candidate))), "-", ".");
    var fb := Strip(OrEmpty(fallback));
    NormalizeTwoUpper(iso2, cand, fb, candidate, fallback);
    ChooseShape(iso2, cand, fb);
  }

  /** For an upper-case two-letter country code, normalising runs the decision on that code as it is. */
  lemma NormalizeTwoUpper(iso2: string, cand: string, fb: string, candidate: Option<string>, fallback: Option<string>)
    requires TwoUpper(iso2)
    requires cand == Replace(Upper(Strip(OrEmpty(candidate))), "-", ".") && fb == Strip(OrEmpty(fallback))
    ensures NormalizeRegionCode(Some(iso2), candidate, fallback) == ChooseRegionCode(iso2, cand, fb)
  {
    TwoUpperNormal(iso2);
    StripTrimmed(iso2);
    UpperIdentity(iso2);
    assert Upper(Strip(OrEmpty(Some(iso2)))) == iso2;
  }

  /** Two upper-case letters are already trimmed and free of lower-case letters. */
  lemma TwoUpperNormal(s: string)
    requires TwoUpper(s)
    ensures Trimmed(s) && NoLower(s)
  {
    forall i | 0 <= i < |s| ensures !IsLowerAscii(s[i]) {
      assert i == 0 || i == 1;
    }
  }

  lemma ChooseShape(c: string, cand: string, fb: string)
    requires TwoUpper(c)
    ensures RegionShape(ChooseRegionCode(c, cand, fb)) || ChooseRegionCode(c, cand, fb) == c
  {
    var r := ChooseRegionCode(c, cand, fb);
    if HasLetter(fb) {
      var a := Abbrev(fb);
      assert r == c + "." + a;
      assert forall i :: 3 <= i < |r| ==> r[i] == a[i - 3];
    } else if !RegionShape(cand) && TwoUpper(cand) {
      assert forall i :: 3 <= i < |r| ==> r[i] == cand[i - 3];
    }
  }

  /** The most specific name of a row: ADM2, else ADM1, else ADM0, else "". */
  function Best(row: Row): (r: string)
    ensures Truthy(ThinkHazard.Cell(row, "ADM2_NAME")) ==> r == row["ADM2_NAME"]
    ensures !Truthy(ThinkHazard.Cell(row, "ADM2_NAME")) && Truthy(ThinkHazard.Cell(row, "ADM1_NAME")) ==> r == row["ADM1_NAME"]
    ensures !Truthy(ThinkHazard.Cell(row, "ADM2_NAME")) && !Truthy(ThinkHazard.Cell(row, "ADM1_NAME")) && Truthy(ThinkHazard.Cell(row, "ADM0_NAME"))
            ==> r == row["ADM0_NAME"]
    ensures r == "" <==> !Truthy(ThinkHazard.Cell(row, "ADM2_NAME")) && !Truthy(ThinkHazard.Cell(row, "ADM1_NAME")) && !Truthy(ThinkHazard.Cell(row, "ADM0_NAME"))
  {
    OrEmpty(Or(ThinkHazard.Cell(row, "ADM2_NAME"), Or(ThinkHazard.Cell(row, "ADM1_NAME"), Or(ThinkHazard.Cell(row, "ADM0_NAME"), Some("")))))
  }

  /** Text made only of digits (Python's `isdigit`, which is false on ""). */
  predicate AllDigits(s: string) {
    |s| > 0 && forall i :: 0 <= i < |s| ==> IsDigit(s[i])
  }

  /** `resolve_cie_region_code`: no country found, or the ISO3 code with a region code. */
  datatype Resolution = Unresolved | Resolved(iso3: string, code: string)

  /**
   The country code used: the row's own ISO3 when it is truthy, otherwise
   the ISO3 of a country row carrying the row's country name, and None when
   no country row carries it.
   */
  function RowIso3(row: Row, adm0: ThinkHazard.Table): (r: Option<string>)
    requires ThinkHazard.NameTable(adm0)
    ensures Truthy(ThinkHazard.Cell(row, "ISO3166_a3")) ==> r == ThinkHazard.Cell(row, "ISO3166_a3")
    ensures var name := ThinkHazard.Cell(row, "ADM0_NAME").GetOr("");
      !Truthy(ThinkHazard.Cell(row, "ISO3166_a3")) ==>
        && (r.Some? ==> exists i :: 0 <= i < |adm0.rows| && ThinkHazard.NameIs(adm0.rows[i], name)
                                    && r == ThinkHazard.Cell(adm0.rows[i], "ISO3166_a3"))
        && ((forall i :: 0 <= i < |adm0.rows| ==> !ThinkHazard.NameIs(adm0.rows[i], name)) ==> r == None)
  {
    if Truthy(ThinkHazard.Cell(row, "ISO3166_a3")) then ThinkHazard.Cell(row, "ISO3166_a3")
    else ThinkHazard.Iso3ByName(adm0, ThinkHazard.Cell(row, "ADM0_NAME").GetOr(""))
  }

  /** The fuzzy matches the resolver asks for: the best name against the country's entries, threshold 80. */
  function ResolverMatches(row: Row, iso2: Option<string>, entries: seq<IsoMap.Entry>, scorer: IsoMap.Scorer)
    : seq<Ranking.Candidate>
  {
    if Best(row) != "" then IsoMap.FuzzyMatchRegion(Best(row), PyStr(iso2), entries, scorer, ResolverThreshold)
    else []
  }

  /** `matches[0][0].upper()` when there is a match. */
  function MatchedCode(ms: seq<Ranking.Candidate>): (r: Option<string>)
    ensures r.Some? <==> |ms| > 0
    ensures r.Some? ==> |r.value| == |ms[0].code| && NoLower(r.value)
    ensures r.Some? ==> forall i :: 0 <= i < |r.value| ==> r.value[i] == UpperChar(ms[0].code[i])
  {
    if |ms| > 0 then
      UpperFacts(ms[0].code);
      Some(Upper(ms[0].code))
    else None
  }

  /**
   Rewrites a matched ISO code: dots for hyphens, and a purely numeric
   suffix after the country replaced by the target's letters. The result is
   the dotted match or the country plus the target's abbreviation, and it
   holds no hyphen unless the country text does.
   */
  function FromMatch(matched: string, iso2: Option<string>, best: string): (r: string)
    ensures r == Replace(matched, "-", ".") || (HasLetter(best) && r == PyStr(iso2) + "." + Abbrev(best))
    ensures '-' !in PyStr(iso2) ==> '-' !in r
    ensures var rc := Replace(matched, "-", ".");
      var suffix := Replace(rc, PyStr(iso2) + ".", "");
      r == (if AllDigits(suffix) && HasLetter(best) then PyStr(iso2) + "." + Abbrev(best) else rc)
  {
    ReplaceSingleRemoves(matched, '-', '.');
    AbbrevEmpty(best);
    var rc := Replace(matched, "-", ".");
    var suffix := Replace(rc, PyStr(iso2) + ".", "");
    if AllDigits(suffix) then
      var abbr := Abbrev(best);
      if abbr != "" then
        assert '-' !in abbr by {
          assert forall i :: 0 <= i < |abbr| ==> IsUpperAscii(abbr[i]);
        }
        PyStr(iso2) + "." + abbr
      else rc
    else rc
  }

  /** `p + "-" + x` with hyphens turned into dots, when neither part has a hyphen. */
  lemma DotJoin(p: string, x: string)
    requires '-' !in p && '-' !in x
    ensures Replace(p + "-" + x, "-", ".") == p + "." + x
  {
    var m := p + "-" + x;
    ReplaceSingle(m, '-', '.');
    forall i | 0 <= i < |m| ensures Replace(m, "-", ".")[i] == (p + "." + x)[i] {
      if i < |p| {
        assert m[i] == p[i] && p[i] in p;
      } else if i > |p| {
        assert m[i] == x[i - |p| - 1] && x[i - |p| - 1] in x;
      }
    }
  }

  /** The suffix `resolve_cie_region_code` tests for a matched `p-x` is `x`, when `x` has no hyphen or dot. */
  lemma SuffixOf(p: string, x: string)
    requires '-' !in p && '-' !in x && '.' !in x
    ensures Replace(Replace(p + "-" + x, "-", "."), p + ".", "") == x
  {
    DotJoin(p, x);
    assert p + "." + x == (p + ".") + x;
    ReplaceFront(p + ".", "", x);
    NoOccurrence(x, p + ".", '.');
  }

  /**
   A match `ISO2-<digits>` for a target name with a letter becomes the
   country plus the name's abbreviation: no digit survives after the dot.
   */
  lemma NumericSuffixAbbreviated(iso2: Option<string>, d: string, best: string)
    requires '-' !in PyStr(iso2) && AllDigits(d)
    requires HasLetter(best)
    ensures var r := FromMatch(PyStr(iso2) + "-" + d, iso2, best);
      && r == PyStr(iso2) + "." + Abbrev(best)
      && forall i :: |PyStr(iso2)| < i < |r| ==> !IsDigit(r[i])
  {
    assert '-' !in d && '.' !in d by {
      assert forall i :: 0 <= i < |d| ==> IsDigit(d[i]);
    }
    SuffixOf(PyStr(iso2), d);
  }

  /** A match `ISO2-<suffix>` whose suffix is not all digits is kept, with a dot for the hyphen. */
  lemma OtherSuffixKept(iso2: Option<string>, x: string, best: string)
    requires '-' !in PyStr(iso2) && '-' !in x && '.' !in x
    requires !AllDigits(x)
    ensures FromMatch(PyStr(iso2) + "-" + x, iso2, best) == PyStr(iso2) + "." + x
  {
    SuffixOf(PyStr(iso2), x);
    DotJoin(PyStr(iso2), x);
  }

  /**
   `resolve_cie_region_code`. No ISO3 on the row and none found by name
   means unresolved. Otherwise the best name is fuzzy-matched (threshold
   80); a match gives its code rewritten by `FromMatch`, no match gives
   the country plus the name's abbreviation, or the bare ISO3.
   */
  function ResolveCieRegionCode(row: Row, adm0: ThinkHazard.Table, entries: seq<IsoMap.Entry>,
                                scorer: IsoMap.Scorer): (r: Resolution)
    requires ThinkHazard.CountryTable(adm0)
    ensures r.Unresolved? <==> !Truthy(RowIso3(row, adm0))
    ensures r.Resolved? ==> Some(r.iso3) == RowIso3(row, adm0)
    ensures r.Resolved? ==>
      var iso2 := ThinkHazard.Iso2ByIso3(adm0, r.iso3);
      var mc := MatchedCode(ResolverMatches(row, iso2, entries, scorer));
      && (Truthy(mc) ==> r.code == FromMatch(mc.value, iso2, Best(row)))
      && (!Truthy(mc) && HasLetter(Best(row)) ==> r.code == PyStr(iso2) + "." + Abbrev(Best(row)))
      && (!Truthy(mc) && !HasLetter(Best(row)) ==> r.code == r.iso3)
  {
    var iso3 := RowIso3(row, adm0);
    if !Truthy(iso3) then Unresolved
    else
      var iso2 := ThinkHazard.Iso2ByIso3(adm0, iso3.value);
      var best := Best(row);
      var code := MatchedCode(ResolverMatches(row, iso2, entries, scorer));
      AbbrevEmpty(best);
      if Truthy(code) then
        Resolved(iso3.value, FromMatch(code.value, iso2, best))
      else
        var abbr := Abbrev(best);
        Resolved(iso3.value, if abbr != "" then PyStr(iso2) + "." + abbr else iso3.value)
  }

  /** A resolved code is never empty, so `build_region_info` renormalises exactly when it differs from the ISO3. */
  lemma ResolvedCodeNonEmpty(row: Row, adm0: ThinkHazard.Table, entries: seq<IsoMap.Entry>, scorer: IsoMap.Scorer)
    requires ThinkHazard.CountryTable(adm0)
    ensures var res := ResolveCieRegionCode(row, adm0, entries, scorer);
      res.Resolved? ==> res.iso3 != "" && res.code != ""
  {
    var res := ResolveCieRegionCode(row, adm0, entries, scorer);
    if res.Resolved? {
      var iso2 := ThinkHazard.Iso2ByIso3(adm0, res.iso3);
      var mc := MatchedCode(ResolverMatches(row, iso2, entries, scorer));
      if Truthy(mc) {
        ReplaceSingle(mc.value, '-', '.');
      }
    }
  }

  /** The record `build_region_info` returns; `display` repeats `name`. */
  datatype RegionInfo = RegionInfo(code: Option<string>, country: Option<string>, countryIso3: Option<string>,
                                   name: string, display: string)

  /** The fallback name `build_region_info` hands to the normaliser: ADM1, else ADM2. */
  function FallbackName(row: Row): Option<string> {
    Or(ThinkHazard.Cell(row, "ADM1_NAME"), ThinkHazard.Cell(row, "ADM2_NAME"))
  }

  /**
   `build_region_info`. The resolved code is renormalised, with the ADM1
   (else ADM2) name as fallback, only when it differs from the ISO3 code;
   the ISO2 code is looked up from the ISO3 (formatted as "None" when
   there is none).
   */
  function BuildRegionInfo(row: Row, adm0: ThinkHazard.Table, entries: seq<IsoMap.Entry>,
                           scorer: IsoMap.Scorer): (r: RegionInfo)
    requires ThinkHazard.CountryTable(adm0)
    ensures r.name == Best(row) && r.display == r.name
    ensures Truthy(RowIso3(row, adm0)) ==> r.countryIso3 == RowIso3(row, adm0) && r.code.Some?
    ensures !Truthy(RowIso3(row, adm0)) ==> r.countryIso3 == None && r.code == None
    ensures r.country == ThinkHazard.Iso2ByIso3(adm0, PyStr(r.countryIso3))
    ensures var res := ResolveCieRegionCode(row, adm0, entries, scorer);
      && (res.Resolved? && res.code == res.iso3 ==> r.code == Some(res.iso3))
      && (res.Resolved? && res.code != res.iso3 ==>
            r.code == Some(NormalizeRegionCode(r.country, Some(res.code), FallbackName(row))))
  {
    match ResolveCieRegionCode(row, adm0, entries, scorer)
    case Unresolved =>
      RegionInfo(None, ThinkHazard.Iso2ByIso3(adm0, PyStr(None)), None, Best(row), Best(row))
    case Resolved(iso3, code) =>
      var iso2 := ThinkHazard.Iso2ByIso3(adm0, iso3);
      ResolvedCodeNonEmpty(row, adm0, entries, scorer);
      assert code != "";
      var code' := if code != "" && code != iso3 then NormalizeRegionCode(iso2, Some(code), FallbackName(row)) else code;
      RegionInfo(Some(code'), iso2, Some(iso3), Best(row), Best(row))
  }

  /**
   When the ADM1 (else ADM2) name has a letter and the code is renormalised,
   the fuzzy match is overridden: the code is the country plus that
   name's abbreviation.
   */
  lemma FallbackOverridesMatch(row: Row, adm0: ThinkHazard.Table, entries: seq<IsoMap.Entry>, scorer: IsoMap.Scorer)
    requires ThinkHazard.CountryTable(adm0)
    ensures var res := ResolveCieRegionCode(row, adm0, entries, scorer);
      var r := BuildRegionInfo(row, adm0, entries, scorer);
      var fb := Strip(OrEmpty(FallbackName(row)));
      res.Resolved? && res.code != res.iso3 && HasLetter(fb) ==>
        r.code == Some(Upper(Strip(OrEmpty(r.country))) + "." + Abbrev(fb))
  {
  }

  /** With a two-letter ISO2, a renormalised code is well formed or the bare ISO2. */
  lemma RegionInfoShape(row: Row, adm0: ThinkHazard.Table, entries: seq<IsoMap.Entry>, scorer: IsoMap.Scorer)
    requires ThinkHazard.CountryTable(adm0)
    ensures var res := ResolveCieRegionCode(row, adm0, entries, scorer);
      var r := BuildRegionInfo(row, adm0, entries, scorer);
      res.Resolved? && res.code != res.iso3 && r.country.Some? && TwoUpper(r.country.value) ==>
        RegionShape(r.code.value) || r.code.value == r.country.value
  {
    var res := ResolveCieRegionCode(row, adm0, entries, scorer);
    var r := BuildRegionInfo(row, adm0, entries, scorer);
    if res.Resolved? && res.code != res.iso3 && r.country.Some? && TwoUpper(r.country.value) {
      NormalizeRegionCodeShape(r.country.value, Some(res.code), FallbackName(row));
    }
  }

  /**
   `resolve_location`: the first row `find_division` returns, turned into a
   region record. A lookup error or no row gives nothing.
   */
  function ResolveLocation(name: string, adm0: ThinkHazard.Table, adm1: ThinkHazard.Table, adm2: ThinkHazard.Table,
                           entries: seq<IsoMap.Entry>, scorer: IsoMap.Scorer): (r: Option<RegionInfo>)
    requires ThinkHazard.CountryTable(adm0)
    ensures var found := ThinkHazard.FindDivision(adm0, adm1, adm2, Some(name));
      && (found.KeyError? ==> r == None)
      && (found.Hits? && |found.frame.rows| == 0 ==> r == None)
      && (found.Hits? && |found.frame.rows| > 0 ==> r == Some(BuildRegionInfo(found.frame.rows[0], adm0, entries, scorer)))
  {
    match ThinkHazard.FindDivision(adm0, adm1, adm2, Some(name))
    case KeyError(_) => None
    case Hits(f) => if |f.rows| == 0 then None else Some(BuildRegionInfo(f.rows[0], adm0, entries, scorer))
  }

  /** A name resolves unless the lookup fails or no level holds it even as a substring. */
  lemma ResolveLocationNone(name: string, adm0: ThinkHazard.Table, adm1: ThinkHazard.Table, adm2: ThinkHazard.Table,
                            entries: seq<IsoMap.Entry>, scorer: IsoMap.Scorer)
    requires ThinkHazard.CountryTable(adm0)
    ensures var found := ThinkHazard.FindDivision(adm0, adm1, adm2, Some(name));
      var levels := ThinkHazard.Levels(adm0, adm1, adm2);
      ResolveLocation(name, adm0, adm1, adm2, entries, scorer).None? <==>
        found.KeyError? || forall i :: 0 <= i < 3 ==> !ThinkHazard.HasHit(levels[i], ThinkHazard.Norm(Some(name)), false)
  {
    ThinkHazard.FindDivisionEmpty(adm0, adm1, adm2, Some(name));
  }

  /** The keys `fetch_cie_shape_codes` reads from each item, in the order it reads them. */
  const ShapeKeys: seq<string> := ["code", "id", "region", "ISO3166-2"]

  /** A field holding a string, which then contributes its upper-cased value. */
  predicate KeyYields(f: map<string, Json>, k: string, c: string) {
    k in f && f[k].JStr? && c == Upper(f[k].s)
  }

  /** An item contributes `c` when it is an object and one of the shape keys yields `c`. */
  predicate Yields(item: Json, c: string) {
    item.JObj? && exists j :: 0 <= j < |ShapeKeys| && KeyYields(item.fields, ShapeKeys[j], c)
  }

  function KeyCodes(f: map<string, Json>, keys: seq<string>): seq<string>
    decreases |keys|
  {
    if |keys| == 0 then []
    else (if keys[0] in f && f[keys[0]].JStr? then [Upper(f[keys[0]].s)] else []) + KeyCodes(f, keys[1..])
  }

  lemma {:induction false} KeyCodesMembership(f: map<string, Json>, keys: seq<string>)
    ensures forall c :: c in KeyCodes(f, keys) <==> exists j :: 0 <= j < |keys| && KeyYields(f, keys[j], c)
    decreases |keys|
  {
    if |keys| > 0 {
      KeyCodesMembership(f, keys[1..]);
      forall c
        ensures c in KeyCodes(f, keys) <==> exists j :: 0 <= j < |keys| && KeyYields(f, keys[j], c)
      {
        if exists j :: 0 <= j < |keys[1..]| && KeyYields(f, keys[1..][j], c) {
          var j :| 0 <= j < |keys[1..]| && KeyYields(f, keys[1..][j], c);
          assert KeyYields(f, keys[j + 1], c);
        }
        if exists j :: 0 <= j < |keys| && KeyYields(f, keys[j], c) {
          var j :| 0 <= j < |keys| && KeyYields(f, keys[j], c);
          if j > 0 {
            assert KeyYields(f, keys[1..][j - 1], c);
          }
        }
      }
    }
  }

  /** Every upper-cased string an item list yields, item by item and key by key, repeats included. */
  function AllCodes(items: seq<Json>): seq<string>
    decreases |items|
  {
    if |items| == 0 then []
    else (if items[0].JObj? then KeyCodes(items[0].fields, ShapeKeys) else []) + AllCodes(items[1..])
  }

  lemma {:induction false} AllCodesMembership(items: seq<Json>)
    ensures forall c :: c in AllCodes(items) <==> exists i :: 0 <= i < |items| && Yields(items[i], c)
    decreases |items|
  {
    if |items| > 0 {
      AllCodesMembership(items[1..]);
      if items[0].JObj? {
        KeyCodesMembership(items[0].fields, ShapeKeys);
      }
      forall c
        ensures c in AllCodes(items) <==> exists i :: 0 <= i < |items| && Yields(items[i], c)
      {
        if exists i :: 0 <= i < |items[1..]| && Yields(items[1..][i], c) {
          var i :| 0 <= i < |items[1..]| && Yields(items[1..][i], c);
          assert Yields(items[i + 1], c);
        }
        if exists i :: 0 <= i < |items| && Yields(items[i], c) {
          var i :| 0 <= i < |items| && Yields(items[i], c);
          if i > 0 {
            assert Yields(items[1..][i - 1], c);
          }
        }
      }
    }
  }

  /**
   The list-processing half of `fetch_cie_shape_codes`: nothing unless the
   response is a list; otherwise every upper-cased string value under any
   of the shape keys of any object item, each once, first occurrence first.
   */
  function ShapeCodes(response: Option<Json>): (r: seq<string>)
    ensures !(response.Some? && response.value.JArr?) ==> r == []
    ensures Distinct(r)
    ensures response.Some? && response.value.JArr? ==>
      forall c :: c in r <==> exists i :: 0 <= i < |response.value.items| && Yields(response.value.items[i], c)
    ensures response.Some? && response.value.JArr? ==>
      FirstOccurrenceOrder(AllCodes(response.value.items), r)
  {
    match response
    case Some(JArr(items)) =>
      var all := AllCodes(items);
      AllCodesMembership(items);
      DedupMembership(all);
      DedupOrder(all);
      Dedup(all)
    case _ => []
  }

  /** An item with both a `code` and an `id` string contributes both, not only the first. */
  lemma ShapeCodesEveryKey(items: seq<Json>, k: nat, code: string, id: string)
    requires k < |items| && items[k].JObj?
    requires "code" in items[k].fields && items[k].fields["code"] == JStr(code)
    requires "id" in items[k].fields && items[k].fields["id"] == JStr(id)
    ensures Upper(code) in ShapeCodes(Some(JArr(items))) && Upper(id) in ShapeCodes(Some(JArr(items)))
  {
    var f := items[k].fields;
    assert KeyYields(f, ShapeKeys[0], Upper(code)) && Yields(items[k], Upper(code));
    assert KeyYields(f, ShapeKeys[1], Upper(id)) && Yields(items[k], Upper(id));
  }

  /** The `code` of the first item, when it is a string, is the first shape code tried. */
  lemma ShapeCodesFirst(items: seq<Json>, code: string)
    requires |items| > 0 && items[0].JObj?
    requires "code" in items[0].fields && items[0].fields["code"] == JStr(code)
    ensures |ShapeCodes(Some(JArr(items)))| > 0 && ShapeCodes(Some(JArr(items)))[0] == Upper(code)
  {
    var all := AllCodes(items);
    assert KeyCodes(items[0].fields, ShapeKeys)[0] == Upper(code);
    assert all[0] == Upper(code);
    DedupKeepsHead(all);
  }

  /** The text before the first `c`: all of `s` when `c` does not occur. */
  function Before(s: string, c: char): (r: string)
    ensures c !in r
    ensures |r| <= |s| && r == s[..|r|]
    ensures |r| < |s| ==> s[|r|] == c
    decreases |s|
  {
    if |s| == 0 || s[0] == c then [] else [s[0]] + Before(s[1..], c)
  }

  /** `Before` stops exactly at a separator that follows a separator-free prefix. */
  lemma {:induction false} BeforeJoin(a: string, rest: string, c: char)
    requires c !in a
    requires rest == [] || rest[0] == c
    ensures Before(a + rest, c) == a
    decreases |a|
  {
    if |a| > 0 {
      assert (a + rest)[1..] == a[1..] + rest;
      BeforeJoin(a[1..], rest, c);
    }
  }

  /** `s.split("-")[1]`: the text between the first and the second hyphen (or the end). */
  function SecondSegment(s: string): (r: string)
    requires '-' in s
    ensures '-' !in r
  {
    var i := |Before(s, '-')|;
    Before(s[i + 1..], '-')
  }

  /** The second segment of `a-b...` is `b` whenever `a` and `b` hold no hyphen. */
  lemma SecondSegmentSplit(a: string, b: string, rest: string)
    requires '-' !in a && '-' !in b
    requires rest == [] || rest[0] == '-'
    ensures '-' in a + "-" + b + rest
    ensures SecondSegment(a + "-" + b + rest) == b
  {
    var s := a + "-" + b + rest;
    assert s[|a|] == '-';
    assert s == a + ("-" + b + rest);
    BeforeJoin(a, "-" + b + rest, '-');
    assert s[|a| + 1..] == b + rest;
    BeforeJoin(b, rest, '-');
  }

  /** The candidates derived from the region code: itself, then its second segment and dotted form if it has a hyphen. */
  function CodeCandidates(code: Option<string>): (r: seq<Option<string>>)
    ensures !Truthy(code) ==> r == []
    ensures Truthy(code) ==> |r| == (if '-' in code.value then 3 else 1) && r[0] == code
    ensures Truthy(code) && '-' in code.value ==>
      r[1] == Some(SecondSegment(code.value)) && r[2] == Some(Replace(code.value, "-", "."))
  {
    if Truthy(code) then
      [code] + (if '-' in code.value then [Some(SecondSegment(code.value)), Some(Replace(code.value, "-", "."))] else [])
    else []
  }

  /** The two abbreviation candidates, present only when the ISO2 and the name's abbreviation are both non-empty. */
  function AbbrevCandidates(info: RegionInfo): (r: seq<Option<string>>)
    ensures Truthy(info.country) && Abbrev(info.name) != "" ==>
      r == [Some(info.country.value + "-" + Abbrev(info.name)), Some(info.country.value + "." + Abbrev(info.name))]
    ensures !(Truthy(info.country) && Abbrev(info.name) != "") ==> r == []
  {
    var abbrev := Abbrev(info.name);
    if Truthy(info.country) && abbrev != "" then
      [Some(info.country.value + "-" + abbrev), Some(info.country.value + "." + abbrev)]
    else []
  }

  /**
   The candidate list of `load_cie`, in order: the code-derived candidates,
   the abbreviation pair, the shape codes, the ISO3 (else ISO2), the ISO2,
   and a final empty region. Repeats are kept.
   */
  function Candidates(info: RegionInfo, shapes: seq<string>): (r: seq<Option<string>>)
    ensures var c, a := CodeCandidates(info.code), AbbrevCandidates(info);
      && |r| == |c| + |a| + |shapes| + 3
      && (forall j :: 0 <= j < |c| ==> r[j] == c[j])
      && (forall j :: 0 <= j < |a| ==> r[|c| + j] == a[j])
      && (forall j :: 0 <= j < |shapes| ==> r[|c| + |a| + j] == Some(shapes[j]))
      && r[|r| - 3] == Or(info.countryIso3, info.country)
      && r[|r| - 2] == info.country
      && r[|r| - 1] == Some("")
  {
    Assemble(CodeCandidates(info.code), AbbrevCandidates(info), shapes,
             [Or(info.countryIso3, info.country), info.country, Some("")])
  }

  /** The candidate groups laid end to end, each shape code wrapped as a present value. */
  function Assemble(c: seq<Option<string>>, a: seq<Option<string>>, shapes: seq<string>, tail: seq<Option<string>>)
    : (r: seq<Option<string>>)
    ensures |r| == |c| + |a| + |shapes| + |tail|
    ensures forall j :: 0 <= j < |c| ==> r[j] == c[j]
    ensures forall j :: 0 <= j < |a| ==> r[|c| + j] == a[j]
    ensures forall j :: 0 <= j < |shapes| ==> r[|c| + |a| + j] == Some(shapes[j])
    ensures forall j :: 0 <= j < |tail| ==> r[|c| + |a| + |shapes| + j] == tail[j]
  {
    var sh := seq(|shapes|, j requires 0 <= j < |shapes| => Some(shapes[j]));
    assert forall j :: 0 <= j < |shapes| ==> sh[j] == Some(shapes[j]);
    ConcatParts(c, a, sh, tail);
    c + a + sh + tail
  }

  /** Where each part of `c + a + m + t` sits in the concatenation. */
  lemma ConcatParts<T>(c: seq<T>, a: seq<T>, m: seq<T>, t: seq<T>)
    ensures var r := c + a + m + t;
      && |r| == |c| + |a| + |m| + |t|
      && (forall j :: 0 <= j < |c| ==> r[j] == c[j])
      && (forall j :: 0 <= j < |a| ==> r[|c| + j] == a[j])
      && (forall j :: 0 <= j < |m| ==> r[|c| + |a| + j] == m[j])
      && (forall j :: 0 <= j < |t| ==> r[|c| + |a| + |m| + j] == t[j])
  {
    var ca := c + a;
    var cam := ca + m;
    var r := cam + t;
    forall j | 0 <= j < |c| ensures r[j] == c[j] {
      assert r[j] == cam[j] == ca[j];
    }
    forall j | 0 <= j < |a| ensures r[|c| + j] == a[j] {
      assert r[|c| + j] == cam[|c| + j] == ca[|c| + j];
    }
    forall j | 0 <= j < |m| ensures r[|c| + |a| + j] == m[j] {
      assert r[|c| + |a| + j] == cam[|ca| + j];
    }
  }

  /**
   Repeats are not removed: a hyphen-free code that already is the country
   plus the name's abbreviation comes back as the dotted abbreviation candidate.
   */
  lemma CandidatesMayRepeat(info: RegionInfo, shapes: seq<string>)
    requires Truthy(info.code) && '-' !in info.code.value
    requires Truthy(info.country) && Abbrev(info.name) != ""
    requires info.code.value == info.country.value + "." + Abbrev(info.name)
    ensures var r := Candidates(info, shapes);
      r[0] == info.code && r[2] == info.code
  {
    var c, a := CodeCandidates(info.code), AbbrevCandidates(info);
    assert |c| == 1 && a[1] == info.code;
  }

  /** A band `load_cie` accepts: a frame with at least one row. A raised error counts as an empty frame. */
  predicate Usable(b: Cie.Band) {
    b.Frame? && |b.rows| > 0
  }

  /** `str(cand)` for every candidate. */
  function Strs(cands: seq<Option<string>>): (r: seq<string>)
    ensures |r| == |cands|
    ensures forall i :: 0 <= i < |cands| ==> r[i] == PyStr(cands[i])
  {
    seq(|cands|, i requires 0 <= i < |cands| => PyStr(cands[i]))
  }

  /**
   The fallback loop of `load_cie`: tries the candidates in order and stops
   at the first usable frame. `tried` is always a prefix of the stringified
   candidates; on success it ends with the winning candidate, and on failure
   it holds them all and the chosen region is "".
   */
  method FetchFirst(cands: seq<Option<string>>, attempt: string -> Cie.Band)
    returns (rows: seq<Cie.Row>, chosen: Option<string>, tried: seq<string>)
    ensures tried <= Strs(cands)
    ensures |rows| > 0 ==>
      && 0 < |tried|
      && chosen == cands[|tried| - 1]
      && attempt(tried[|tried| - 1]) == Cie.Frame(rows)
      && forall j :: 0 <= j < |tried| - 1 ==> !Usable(attempt(tried[j]))
    ensures |rows| == 0 ==>
      && chosen == Some("")
      && tried == Strs(cands)
      && forall j :: 0 <= j < |cands| ==> !Usable(attempt(PyStr(cands[j])))
  {
    tried := [];
    var i := 0;
    while i < |cands|
      invariant 0 <= i <= |cands|
      invariant tried == Strs(cands)[..i]
      invariant forall j :: 0 <= j < i ==> !Usable(attempt(PyStr(cands[j])))
    {
      var s := PyStr(cands[i]);
      tried := tried + [s];
      var band := attempt(s);
      if Usable(band) {
        return band.rows, cands[i], tried;
      }
      i := i + 1;
    }
    return [], Some(""), tried;
  }

  /** One provider call of `load_cie`: the country code and the region as text. */
  function Attempt(provider: Cie.Provider, country: Option<string>, variable: string, scenario: string,
                   parse: Cie.StrParser): string -> Cie.Band
  {
    region => Cie.GetCieBand(provider, country, region, variable, scenario, parse)
  }

  /**
   `load_cie`: builds the candidate list from the region record and the
   shape codes of its ISO3, then runs the fallback loop against the
   time-series provider with the ISO3 (else ISO2) as country. The shape
   endpoint and the provider are oracles.
   */
  method LoadCie(info: RegionInfo, variable: string, scenario: string, shapeProvider: Option<string> -> Option<Json>,
                 provider: Cie.Provider, parse: Cie.StrParser)
    returns (rows: seq<Cie.Row>, chosen: Option<string>, tried: seq<string>)
    ensures var cands := Candidates(info, ShapeCodes(shapeProvider(info.countryIso3)));
      var country := Or(info.countryIso3, info.country);
      && tried <= Strs(cands)
      && (|rows| > 0 ==>
            && 0 < |tried|
            && chosen == cands[|tried| - 1]
            && Cie.GetCieBand(provider, country, tried[|tried| - 1], variable, scenario, parse) == Cie.Frame(rows)
            && forall j :: 0 <= j < |tried| - 1 ==>
                 !Usable(Cie.GetCieBand(provider, country, tried[j], variable, scenario, parse)))
      && (|rows| == 0 ==>
            && chosen == Some("") && tried == Strs(cands) && tried[|tried| - 1] == ""
            && forall j :: 0 <= j < |cands| ==>
                 !Usable(Cie.GetCieBand(provider, country, PyStr(cands[j]), variable, scenario, parse)))
    ensures |rows| > 0 ==> Cie.SortedByYear(rows) && forall i :: 0 <= i < |rows| ==> Cie.HasValue(rows[i])
  {
    var shapes := ShapeCodes(shapeProvider(info.countryIso3));
    var cands := Candidates(info, shapes);
    var country := Or(info.countryIso3, info.country);
    var attempt := Attempt(provider, country, variable, scenario, parse);
    rows, chosen, tried := FetchFirst(cands, attempt);
    assert forall region :: attempt(region) == Cie.GetCieBand(provider, country, region, variable, scenario, parse);
    if |rows| == 0 {
      assert tried[|tried| - 1] == PyStr(cands[|cands| - 1]);
    }
  }

  /** A point of the standardised series: whole year and the median. */
  datatype Point = Point(year: int, value: real)

  /** The frame `standardize` returns: a year column and the median under the region's label. */
  datatype Series = Series(column: string, points: seq<Point>)

  /** A row `dropna(subset=["year", "median"])` keeps. */
  predicate Plottable(row: Cie.Row) {
    row.year.Some? && row.median.Some?
  }

  function ToPoint(row: Cie.Row): Point
    requires Plottable(row)
  {
    Point(Trunc(row.year.value), row.median.value)
  }

  /**
   `standardize` on a frame from `get_cie_band`: the rows with both a year
   and a median, in order, as (truncated year, median) under the label.
   An empty frame gives an empty series.
   */
  function Standardize(rows: seq<Cie.Row>, column: string): (r: Series)
    ensures r.column == column
    ensures var pos := Positions(rows, Plottable);
      && |r.points| == |pos|
      && forall i :: 0 <= i < |pos| ==>
           r.points[i] == Point(Trunc(rows[pos[i]].year.value), rows[pos[i]].median.value)
  {
    var kept := Filter(rows, Plottable);
    FilterIsPositions(rows, Plottable);
    Series(column, seq(|kept|, i requires 0 <= i < |kept| => ToPoint(kept[i])))
  }

  /** A series standardised from a year-sorted frame has non-decreasing years. */
  lemma StandardizeSorted(rows: seq<Cie.Row>, column: string)
    requires Cie.SortedByYear(rows)
    ensures var ps := Standardize(rows, column).points;
      forall i, j :: 0 <= i < j < |ps| ==> ps[i].year <= ps[j].year
  {
    var ps := Standardize(rows, column).points;
    var pos := Positions(rows, Plottable);
    forall i, j | 0 <= i < j < |ps|
      ensures ps[i].year <= ps[j].year
    {
      var a := rows[pos[i]];
      var b := rows[pos[j]];
      assert Cie.YearBefore(a.year, b.year);
      TruncMonotone(a.year.value, b.year.value);
    }
  }
}

=== FILE: isomap.dfy ===
/**
 The ISO 3166-2 subdivision matcher: entries of one country are given an
 alias string each, scored against the query with an opaque similarity
 scorer, biased by keywords and ranked best first, with a best-effort
 top-three fallback. Loading the table is outside the model.
 */
module IsoMap {
  import opened Optional
  import opened Seqs
  import opened Text
  import opened Ranking
  import opened Numeric

  /**
   One ISO 3166-2 entry. `code` is None when the JSON value is not a string;
   `translations` is Some(values, in mapping order) exactly when it is a mapping.
   */
  datatype Entry = Entry(code: Option<string>, name: string, translations: Option<seq<string>>)

  type Ratio = x: real | 0.0 <= x <= 100.0 witness 0.0

  /** `fuzz.token_sort_ratio`, taken as an opaque float similarity in 0.0..100.0. */
  type Scorer = (string, string) -> Ratio

  /** Keywords that raise a candidate's score by 5. */
  const Boosts: seq<string> := ["region", "province", "state", "governorate", "metropolitan"]

  /** Keywords that lower a candidate's score by 5. */
  const Penalties: seq<string> := ["district", "county", "municipality"]

  predicate NotCombining(c: char) {
    !IsCombining(c)
  }

  /** A character that normalisation leaves as it is. */
  predicate Folded(c: char) {
    !IsUpperAscii(c) && !IsCombining(c)
  }

  /** `_norm`: None becomes "", combining marks are removed, then lower-cased and trimmed. */
  function Norm(s: Option<string>): (r: string)
    ensures s.None? ==> r == ""
    ensures Trimmed(r) && NoUpper(r)
    ensures forall i :: 0 <= i < |r| ==> !IsCombining(r[i])
  {
    var f := Filter(s.GetOr(""), NotCombining);
    LowerFolded(f);
    StripKeeps(Lower(f), Folded);
    FoldedOnly(Strip(Lower(f)));
    Strip(Lower(f))
  }

  /** Lower-casing text without combining marks leaves only folded characters. */
  lemma LowerFolded(f: string)
    requires forall i :: 0 <= i < |f| ==> NotCombining(f[i])
    ensures forall i :: 0 <= i < |Lower(f)| ==> Folded(Lower(f)[i])
  {
    var l := Lower(f);
    forall i | 0 <= i < |l| ensures Folded(l[i]) {
      assert l[i] == LowerChar(f[i]) && NotCombining(f[i]);
    }
  }

  lemma FoldedOnly(r: string)
    requires forall i :: 0 <= i < |r| ==> Folded(r[i])
    ensures NoUpper(r)
    ensures forall i :: 0 <= i < |r| ==> !IsCombining(r[i])
  {
  }

  /** Normalising twice is the same as normalising once. */
  lemma NormIdempotent(s: Option<string>)
    ensures Norm(Some(Norm(s))) == Norm(s)
  {
    var n := Norm(s);
    FilterAllKept(n, NotCombining);
    LowerIdentity(n);
    StripTrimmed(n);
  }

  /** A text already without combining marks, upper-case letters or surrounding whitespace normalises to itself. */
  lemma NormFixed(t: string)
    requires Trimmed(t) && NoUpper(t)
    requires forall i :: 0 <= i < |t| ==> !IsCombining(t[i])
    ensures Norm(Some(t)) == t
  {
    FilterAllKept(t, NotCombining);
    LowerIdentity(t);
    StripTrimmed(t);
  }

  predicate InCountry(iso2: string, e: Entry) {
    e.code.Some? && StartsWith(e.code.value, iso2 + "-")
  }

  function CountryTest(iso2: string): Entry -> bool {
    e => InCountry(iso2, e)
  }

  /** `filter_country_entries`: exactly the entries coded `<iso2>-…`, in table order. */
  function FilterCountryEntries(iso2: string, entries: seq<Entry>): (r: seq<Entry>)
    ensures var pos := Positions(entries, CountryTest(iso2));
      |r| == |pos| && forall i :: 0 <= i < |pos| ==> r[i] == entries[pos[i]]
    ensures forall i :: 0 <= i < |r| ==> InCountry(iso2, r[i])
    ensures AllCoded(r)
  {
    var r := Filter(entries, CountryTest(iso2));
    FilterIsPositions(entries, CountryTest(iso2));
    r
  }

  predicate AllCoded(es: seq<Entry>) {
    forall i :: 0 <= i < |es| ==> es[i].code.Some?
  }

  /** An insertion-ordered dictionary from code to alias string. */
  type Aliases = seq<(string, string)>

  function Keys(al: Aliases): (r: seq<string>)
    ensures |r| == |al| && forall i :: 0 <= i < |al| ==> r[i] == al[i].0
  {
    seq(|al|, i requires 0 <= i < |al| => al[i].0)
  }

  function Codes(es: seq<Entry>): (r: seq<string>)
    requires AllCoded(es)
    ensures |r| == |es| && forall i :: 0 <= i < |es| ==> r[i] == es[i].code.value
  {
    seq(|es|, i requires 0 <= i < |es| => es[i].code.value)
  }

  /** `d[k] = v`: overwrites the value in place, or appends a new key at the end. */
  function Put(al: Aliases, k: string, v: string): Aliases {
    if k in Keys(al) then seq(|al|, i requires 0 <= i < |al| => if al[i].0 == k then (k, v) else al[i])
    else al + [(k, v)]
  }

  /** `d[k] += suffix`. */
  function Extend(al: Aliases, k: string, suffix: string): Aliases {
    seq(|al|, i requires 0 <= i < |al| => if al[i].0 == k then (k, al[i].1 + suffix) else al[i])
  }

  /** The text appended for one translation mapping: " " + value, for each value. */
  function Joined(vals: seq<string>): string
    decreases |vals|
  {
    if |vals| == 0 then "" else Joined(vals[..|vals| - 1]) + " " + vals[|vals| - 1]
  }

  function Suffix(e: Entry): string {
    match e.translations
    case Some(vals) => Joined(vals)
    case None => ""
  }

  /** The dictionary comprehension `{code: name}` over the entries. */
  function PrimaryNames(es: seq<Entry>): Aliases
    requires AllCoded(es)
    decreases |es|
  {
    if |es| == 0 then []
    else
      var e := es[|es| - 1];
      Put(PrimaryNames(es[..|es| - 1]), e.code.value, e.name)
  }

  /** The loop appending every translation value to its code's alias. */
  function AddTranslations(al: Aliases, es: seq<Entry>): Aliases
    requires AllCoded(es)
    decreases |es|
  {
    if |es| == 0 then al
    else
      var e := es[|es| - 1];
      Extend(AddTranslations(al, es[..|es| - 1]), e.code.value, Suffix(e))
  }

  function BuildAliases(es: seq<Entry>): Aliases
    requires AllCoded(es)
  {
    AddTranslations(PrimaryNames(es), es)
  }

  /** Reference: the name of the last entry with code `c` (the one a dictionary keeps). */
  function LastName(es: seq<Entry>, c: string): Option<string>
    requires AllCoded(es)
    decreases |es|
  {
    if |es| == 0 then None
    else if es[|es| - 1].code.value == c then Some(es[|es| - 1].name)
    else LastName(es[..|es| - 1], c)
  }

  /** Reference: the translation text of every entry with code `c`, in entry order. */
  function SuffixesFor(es: seq<Entry>, c: string): string
    requires AllCoded(es)
    decreases |es|
  {
    if |es| == 0 then ""
    else SuffixesFor(es[..|es| - 1], c) + (if es[|es| - 1].code.value == c then Suffix(es[|es| - 1]) else "")
  }

  lemma PrimaryNamesSpec(es: seq<Entry>)
    requires AllCoded(es)
    ensures Keys(PrimaryNames(es)) == Dedup(Codes(es))
    ensures forall i :: 0 <= i < |PrimaryNames(es)| ==>
      LastName(es, PrimaryNames(es)[i].0) == Some(PrimaryNames(es)[i].1)
  {
    PrimaryNamesKeys(es);
    PrimaryNamesLast(es);
  }

  /** The dictionary's keys are the codes in first-insertion order. */
  lemma {:induction false} PrimaryNamesKeys(es: seq<Entry>)
    requires AllCoded(es)
    ensures Keys(PrimaryNames(es)) == Dedup(Codes(es))
    decreases |es|
  {
    if |es| > 0 {
      var pre := es[..|es| - 1];
      var e := es[|es| - 1];
      PrimaryNamesKeys(pre);
      assert Codes(pre) == Codes(es)[..|es| - 1];
      PutKeys(PrimaryNames(pre), e.code.value, e.name);
    }
  }

  /** Each key holds the name of the last entry with that code. */
  lemma {:induction false} PrimaryNamesLast(es: seq<Entry>)
    requires AllCoded(es)
    ensures forall i :: 0 <= i < |PrimaryNames(es)| ==>
      LastName(es, PrimaryNames(es)[i].0) == Some(PrimaryNames(es)[i].1)
    decreases |es|
  {
    if |es| > 0 {
      var pre := es[..|es| - 1];
      var e := es[|es| - 1];
      var al := PrimaryNames(pre);
      PrimaryNamesLast(pre);
      var r := PrimaryNames(es);
      assert r == Put(al, e.code.value, e.name);
      forall i | 0 <= i < |r|
        ensures LastName(es, r[i].0) == Some(r[i].1)
      {
        if r[i].0 != e.code.value {
          assert i < |al| && r[i] == al[i];
        }
      }
    }
  }

  /** Putting a key keeps the key order, appending the key when it is new. */
  lemma PutKeys(al: Aliases, k: string, v: string)
    ensures Keys(Put(al, k, v)) == if k in Keys(al) then Keys(al) else Keys(al) + [k]
  {
    if k in Keys(al) {
      assert forall i :: 0 <= i < |al| ==> Keys(Put(al, k, v))[i] == Keys(al)[i];
    } else {
      assert forall i :: 0 <= i < |al| + 1 ==> Keys(Put(al, k, v))[i] == (Keys(al) + [k])[i];
    }
  }

  lemma {:induction false} AddTranslationsSpec(al: Aliases, es: seq<Entry>)
    requires AllCoded(es)
    ensures Keys(AddTranslations(al, es)) == Keys(al)
    ensures forall i :: 0 <= i < |al| ==>
      AddTranslations(al, es)[i].1 == al[i].1 + SuffixesFor(es, al[i].0)
    decreases |es|
  {
    if |es| > 0 {
      AddTranslationsSpec(al, es[..|es| - 1]);
    }
  }

  /**
   The alias dictionary has one key per distinct code, in first-occurrence
   order, and each alias is the code's primary name followed by the
   translation text of every entry with that code.
   */
  lemma BuildAliasesSpec(es: seq<Entry>)
    requires AllCoded(es)
    ensures Keys(BuildAliases(es)) == Dedup(Codes(es))
    ensures Distinct(Keys(BuildAliases(es)))
    ensures forall i :: 0 <= i < |BuildAliases(es)| ==>
      var (c, a) := BuildAliases(es)[i];
      LastName(es, c).Some? && a == LastName(es, c).value + SuffixesFor(es, c)
  {
    PrimaryNamesSpec(es);
    AddTranslationsSpec(PrimaryNames(es), es);
  }

  /** For a code used by a single entry, the alias is that entry's name plus its translations. */
  lemma {:induction false} UniqueCodeAlias(es: seq<Entry>, j: nat)
    requires AllCoded(es) && j < |es|
    requires forall k :: 0 <= k < |es| && k != j ==> es[k].code != es[j].code
    ensures LastName(es, es[j].code.value) == Some(es[j].name)
    ensures SuffixesFor(es, es[j].code.value) == Suffix(es[j])
    decreases |es|
  {
    var c := es[j].code.value;
    if j < |es| - 1 {
      UniqueCodeAlias(es[..|es| - 1], j);
    } else {
      NoCodeNothing(es[..|es| - 1], c);
    }
  }

  lemma {:induction false} NoCodeNothing(es: seq<Entry>, c: string)
    requires AllCoded(es)
    requires forall k :: 0 <= k < |es| ==> es[k].code.value != c
    ensures SuffixesFor(es, c) == ""
    decreases |es|
  {
    if |es| > 0 {
      NoCodeNothing(es[..|es| - 1], c);
    }
  }

  /** Some keyword of `kws` occurs in `s`. */
  function AnyIn(s: string, kws: seq<string>): (r: bool)
    ensures r <==> exists k :: 0 <= k < |kws| && Contains(s, kws[k])
    decreases |kws|
  {
    if |kws| == 0 then false
    else Contains(s, kws[0]) || AnyIn(s, kws[1..])
  }

  /**
   `_bias`: +5 when the lower-cased name mentions a broad-region keyword,
   -5 when it mentions a fine-grained one; both can apply and cancel out.
   */
  function Bias(name: string): (r: int)
    ensures r == -5 || r == 0 || r == 5
    ensures r == 5 <==> AnyIn(Lower(name), Boosts) && !AnyIn(Lower(name), Penalties)
    ensures r == -5 <==> !AnyIn(Lower(name), Boosts) && AnyIn(Lower(name), Penalties)
  {
    var l := Lower(name);
    var bonus := if AnyIn(l, Boosts) then 5 else 0;
    if AnyIn(l, Penalties) then bonus - 5 else bonus
  }

  /** The raw similarity of an alias to the normalised query. */
  function Raw(scorer: Scorer, q: string, alias: string): Ratio {
    scorer(q, Norm(Some(alias)))
  }

  function Clears(scorer: Scorer, q: string, threshold: int): ((string, string)) -> bool {
    (a: (string, string)) => Raw(scorer, q, a.1) >= threshold as real
  }

  /** The candidate reported for an alias: stripped name, raw score plus bias, truncated by `int()`. */
  function Biased(scorer: Scorer, q: string, a: (string, string)): Candidate {
    Candidate(a.0, Strip(a.1), Trunc(Raw(scorer, q, a.1) + Bias(Strip(a.1)) as real) as real)
  }

  function BiasAll(scorer: Scorer, q: string, al: Aliases): (r: seq<Candidate>)
    ensures |r| == |al| && forall i :: 0 <= i < |al| ==> r[i] == Biased(scorer, q, al[i])
  {
    seq(|al|, i requires 0 <= i < |al| => Biased(scorer, q, al[i]))
  }

  /**
   The aliases that clear the threshold on their raw score, in dictionary
   order, each with its bias applied afterwards.
   */
  function Scored(al: Aliases, q: string, scorer: Scorer, threshold: int): (r: seq<Candidate>)
    ensures var pos := Positions(al, Clears(scorer, q, threshold));
      |r| == |pos| && forall i :: 0 <= i < |pos| ==> r[i] == Biased(scorer, q, al[pos[i]])
  {
    FilterIsPositions(al, Clears(scorer, q, threshold));
    BiasAll(scorer, q, Filter(al, Clears(scorer, q, threshold)))
  }

  /**
   Candidate `m` reports alias `a`: its code, stripped name, and raw score
   (clearing the threshold) plus bias, truncated toward zero to a whole number.
   */
  predicate Explains(scorer: Scorer, q: string, threshold: int, a: (string, string), m: Candidate) {
    && a.0 == m.code
    && m.name == Strip(a.1)
    && Raw(scorer, q, a.1) >= threshold as real
    && m.score == Trunc(Raw(scorer, q, a.1) + Bias(Strip(a.1)) as real) as real
  }

  /** The fallback list: every entry, its raw name, scored unbiased on that name, the float kept as it is. */
  function Rough(es: seq<Entry>, q: string, scorer: Scorer): (r: seq<Candidate>)
    requires AllCoded(es)
    ensures |r| == |es|
    ensures forall i :: 0 <= i < |es| ==>
      r[i] == Candidate(es[i].code.value, es[i].name, scorer(q, Norm(Some(es[i].name))))
  {
    seq(|es|, i requires 0 <= i < |es| =>
      Candidate(es[i].code.value, es[i].name, scorer(q, Norm(Some(es[i].name)))))
  }

  /**
   The main-branch promise: a stable best-first sort of the scored aliases,
   one candidate per code, each reporting an alias that cleared the
   threshold on its raw score, with the bias added afterwards.
   */
  ghost predicate MainSpec(r: seq<Candidate>, al: Aliases, q: string, scorer: Scorer, threshold: int) {
    && StableSortOf(r, Scored(al, q, scorer, threshold))
    && DistinctCodes(r)
    && forall m :: m in r ==> exists k :: 0 <= k < |al| && Explains(scorer, q, threshold, al[k], m)
  }

  /**
   The fallback promise: the first three (or all, if fewer) of a stable
   best-first sort of the rough list, so distinct entries with ties in entry
   order; anything left out scores no higher than the last kept.
   */
  ghost predicate FallbackSpec(r: seq<Candidate>, rough: seq<Candidate>) {
    && |r| == (if |rough| < 3 then |rough| else 3)
    && SortedDesc(r)
    && multiset(r) <= multiset(rough)
    && (exists s :: StableSortOf(s, rough) && r == Take(s, 3))
    && (forall m :: m in r ==> m in rough)
    && (forall j :: 0 <= j < |rough| ==> rough[j] in r || rough[j].score <= r[|r| - 1].score)
  }

  /**
   `fuzzy_match_region`. Nothing for an empty query or a country without
   entries. Otherwise the aliases clearing `threshold` on their raw score,
   biased and sorted stably best first, one per code; when none clears it,
   the top three entries by unbiased score on the primary name.
   */
  function FuzzyMatchRegion(name: string, iso2: string, entries: seq<Entry>, scorer: Scorer, threshold: int)
    : (r: seq<Candidate>)
    ensures Norm(Some(name)) == "" || |FilterCountryEntries(iso2, entries)| == 0 ==> r == []
    ensures var country := FilterCountryEntries(iso2, entries);
      var q := Norm(Some(name));
      var al := BuildAliases(country);
      q != "" && |country| > 0 && |Scored(al, q, scorer, threshold)| > 0 ==>
        MainSpec(r, al, q, scorer, threshold)
    ensures var country := FilterCountryEntries(iso2, entries);
      var q := Norm(Some(name));
      q != "" && |country| > 0 && |Scored(BuildAliases(country), q, scorer, threshold)| == 0 ==>
        FallbackSpec(r, Rough(country, q, scorer))
  {
    var country := FilterCountryEntries(iso2, entries);
    var q := Norm(Some(name));
    if q == "" || |country| == 0 then []
    else
      var al := BuildAliases(country);
      var scored := Scored(al, q, scorer, threshold);
      if |scored| > 0 then
        BuildAliasesSpec(country);
        MainBranchFacts(al, q, scorer, threshold);
        SortDesc(scored)
      else
        TopThree(Rough(country, q, scorer));
        Take(SortDesc(Rough(country, q, scorer)), 3)
  }

  /** Each scored candidate comes from its own alias, so codes stay distinct. */
  lemma ScoredFacts(al: Aliases, q: string, scorer: Scorer, threshold: int)
    requires Distinct(Keys(al))
    ensures DistinctCodes(Scored(al, q, scorer, threshold))
    ensures forall i :: 0 <= i < |Scored(al, q, scorer, threshold)| ==>
      exists k :: 0 <= k < |al| && Explains(scorer, q, threshold, al[k], Scored(al, q, scorer, threshold)[i])
  {
    ScoredDistinct(al, q, scorer, threshold);
    ScoredExplained(al, q, scorer, threshold);
  }

  lemma ScoredDistinct(al: Aliases, q: string, scorer: Scorer, threshold: int)
    requires Distinct(Keys(al))
    ensures DistinctCodes(Scored(al, q, scorer, threshold))
  {
    var scored := Scored(al, q, scorer, threshold);
    var pos := Positions(al, Clears(scorer, q, threshold));
    forall i, j | 0 <= i < j < |scored| ensures scored[i].code != scored[j].code {
      assert pos[i] < pos[j];
      assert scored[i].code == Keys(al)[pos[i]];
      assert scored[j].code == Keys(al)[pos[j]];
    }
  }

  lemma ScoredExplained(al: Aliases, q: string, scorer: Scorer, threshold: int)
    ensures forall i :: 0 <= i < |Scored(al, q, scorer, threshold)| ==>
      exists k :: 0 <= k < |al| && Explains(scorer, q, threshold, al[k], Scored(al, q, scorer, threshold)[i])
  {
    var scored := Scored(al, q, scorer, threshold);
    var pos := Positions(al, Clears(scorer, q, threshold));
    forall i | 0 <= i < |scored|
      ensures exists k :: 0 <= k < |al| && Explains(scorer, q, threshold, al[k], scored[i])
    {
      var k := pos[i];
      assert Clears(scorer, q, threshold)(al[k]);
      assert scored[i] == Biased(scorer, q, al[k]);
      BiasedExplains(scorer, q, threshold, al[k]);
    }
  }

  /** An alias that clears the threshold is reported by its biased candidate. */
  lemma BiasedExplains(scorer: Scorer, q: string, threshold: int, a: (string, string))
    requires Raw(scorer, q, a.1) >= threshold as real
    ensures Explains(scorer, q, threshold, a, Biased(scorer, q, a))
  {
  }

  /** The sorted main list keeps one candidate per code, each traceable to its alias. */
  lemma MainBranchFacts(al: Aliases, q: string, scorer: Scorer, threshold: int)
    requires Distinct(Keys(al))
    ensures MainSpec(SortDesc(Scored(al, q, scorer, threshold)), al, q, scorer, threshold)
  {
    var scored := Scored(al, q, scorer, threshold);
    ScoredFacts(al, q, scorer, threshold);
    SortKeepsDistinctCodes(scored);
    ExplainedKept(scored, SortDesc(scored), al, q, scorer, threshold);
  }

  /** Every candidate of a rearrangement of explained candidates is explained too. */
  lemma ExplainedKept(scored: seq<Candidate>, r: seq<Candidate>, al: Aliases, q: string, scorer: Scorer, threshold: int)
    requires forall m :: m in r ==> m in scored
    requires forall i :: 0 <= i < |scored| ==>
      exists k :: 0 <= k < |al| && Explains(scorer, q, threshold, al[k], scored[i])
    ensures forall m :: m in r ==> exists k :: 0 <= k < |al| && Explains(scorer, q, threshold, al[k], m)
  {
    forall m | m in r
      ensures exists k :: 0 <= k < |al| && Explains(scorer, q, threshold, al[k], m)
    {
      var i :| 0 <= i < |scored| && scored[i] == m;
    }
  }

  /** Taking the first three of a sorted permutation keeps the three best scores. */
  lemma TopThree(rough: seq<Candidate>)
    requires |rough| > 0
    ensures FallbackSpec(Take(SortDesc(rough), 3), rough)
  {
    var sorted := SortDesc(rough);
    assert forall y :: y in sorted ==> y in rough;
    assert forall j :: 0 <= j < |rough| ==> rough[j] in sorted;
    TopOfSorted(sorted, rough);
  }

  lemma TopOfSorted(sorted: seq<Candidate>, rough: seq<Candidate>)
    requires |rough| > 0 && StableSortOf(sorted, rough)
    requires multiset(sorted) == multiset(rough)
    requires forall y :: y in sorted ==> y in rough
    requires forall j :: 0 <= j < |rough| ==> rough[j] in sorted
    ensures FallbackSpec(Take(sorted, 3), rough)
  {
    var r := Take(sorted, 3);
    assert r == sorted[..|r|];
    TakeOfSorted(sorted, rough);
    forall m | m in r ensures m in rough {
      assert m in sorted;
    }
    forall j | 0 <= j < |rough| ensures rough[j] in r || rough[j].score <= r[|r| - 1].score {
      var m :| 0 <= m < |sorted| && sorted[m] == rough[j];
      if m < |r| {
        assert r[m] == sorted[m];
      } else {
        assert sorted[|r| - 1] == r[|r| - 1];
      }
    }
  }

  /** The first three of a sorted permutation are distinct entries of the input. */
  lemma TakeOfSorted(sorted: seq<Candidate>, rough: seq<Candidate>)
    requires StableSortOf(sorted, rough) && multiset(sorted) == multiset(rough)
    ensures multiset(Take(sorted, 3)) <= multiset(rough)
    ensures exists s :: StableSortOf(s, rough) && Take(sorted, 3) == Take(s, 3)
  {
    var r := Take(sorted, 3);
    assert sorted == r + sorted[|r|..];
  }
}

=== FILE: json.dfy ===
/** Parsed JSON values as the providers return them. */
module Json {
  datatype Json =
    | JNull
    | JBool(b: bool)
    | JNum(n: real)
    | JStr(s: string)
    | JArr(items: seq<Json>)
    | JObj(fields: map<string, Json>)

  /** `obj.get(key, default)` on a JSON object. */
  function Get(fields: map<string, Json>, key: string, default: Json): Json {
    if key in fields then fields[key] else default
  }
}

=== FILE: numeric.dfy ===
/** Python's conversion of a float to an integer. */
module Numeric {

  /** `int(x)` and `astype(int)` on a float: truncation toward zero. */
  function Trunc(x: real): (r: int)
    ensures 0.0 <= x ==> r as real <= x < r as real + 1.0
    ensures x < 0.0 ==> r as real - 1.0 < x <= r as real
  {
    if x >= 0.0 then x.Floor else -((-x).Floor)
  }

  /** Truncation keeps order. */
  lemma TruncMonotone(a: real, b: real)
    requires a <= b
    ensures Trunc(a) <= Trunc(b)
  {
  }
}

=== FILE: optional.dfy ===
/** The optional value used wherever the modelled code can return Python's None. */
module Optional {

  datatype Option<+T> = None | Some(value: T) {

    /** Returns the wrapped value, or `default` when there is none. */
    function GetOr(default: T): T {
      match this
      case Some(v) => v
      case None => default
    }
  }
}

=== FILE: ranking.dfy ===
/**
 Scored candidates and Python's stable `list.sort(key=score, reverse=True)`:
 descending by score, equal scores kept in their original order.
 */
module Ranking {
  import opened Seqs

  /** An ISO 3166-2 code with the name it matched on and its score. */
  datatype Candidate = Candidate(code: string, name: string, score: real)

  predicate SortedDesc(s: seq<Candidate>) {
    forall i, j :: 0 <= i < j < |s| ==> s[i].score >= s[j].score
  }

  function HasScore(v: real): Candidate -> bool {
    (c: Candidate) => c.score == v
  }

  /**
   `r` is a stable descending sort of `s`: sorted, and the candidates with any
   one score appear in `r` in the same order as in `s`.
   */
  ghost predicate StableSortOf(r: seq<Candidate>, s: seq<Candidate>) {
    && |r| == |s|
    && SortedDesc(r)
    && forall v :: Filter(r, HasScore(v)) == Filter(s, HasScore(v))
  }

  /** Places `x` before the first element whose score is not larger. */
  function Insert(x: Candidate, t: seq<Candidate>): (r: seq<Candidate>)
    requires SortedDesc(t)
    ensures |r| == |t| + 1
    ensures SortedDesc(r)
    ensures forall y :: y in r <==> y == x || y in t
    ensures multiset(r) == multiset(t) + multiset{x}
    decreases |t|
  {
    if |t| == 0 || x.score >= t[0].score then [x] + t
    else
      var rest := Insert(x, t[1..]);
      assert t == [t[0]] + t[1..];
      assert forall k :: 0 <= k < |rest| ==> rest[k].score <= t[0].score by {
        forall k | 0 <= k < |rest| ensures rest[k].score <= t[0].score {
          assert rest[k] in rest;
        }
      }
      [t[0]] + rest
  }

  /** Filtering after a common head depends only on what filtering the tails gives. */
  lemma ConsCongruent(y: Candidate, a: seq<Candidate>, b: seq<Candidate>, p: Candidate -> bool)
    requires Filter(a, p) == Filter(b, p)
    ensures Filter([y] + a, p) == Filter([y] + b, p)
  {
    FilterConcat([y], a, p);
    FilterConcat([y], b, p);
  }

  /** Two candidates with different scores can swap without changing any score class. */
  lemma SwapDifferentScores(a: Candidate, b: Candidate, rest: seq<Candidate>, v: real)
    requires a.score != b.score
    ensures Filter([a] + ([b] + rest), HasScore(v)) == Filter([b] + ([a] + rest), HasScore(v))
  {
    FilterSwap(a, b, rest, HasScore(v));
  }

  /** Insertion keeps every score class in the order of `[x] + t`. */
  lemma {:induction false} InsertStable(x: Candidate, t: seq<Candidate>, v: real)
    requires SortedDesc(t)
    ensures Filter(Insert(x, t), HasScore(v)) == Filter([x] + t, HasScore(v))
    decreases |t|
  {
    if !(|t| == 0 || x.score >= t[0].score) {
      var t' := t[1..];
      InsertStable(x, t', v);
      ConsCongruent(t[0], Insert(x, t'), [x] + t', HasScore(v));
      SwapDifferentScores(t[0], x, t', v);
      assert t == [t[0]] + t';
    }
  }

  /** Stable descending insertion sort. */
  function SortDesc(s: seq<Candidate>): (r: seq<Candidate>)
    ensures StableSortOf(r, s)
    ensures multiset(r) == multiset(s)
    ensures forall y :: y in r <==> y in s
    decreases |s|
  {
    if |s| == 0 then []
    else
      var t := SortDesc(s[1..]);
      SortStep(s, t);
      assert s == [s[0]] + s[1..];
      Insert(s[0], t)
  }

  /** Inserting the head into a stable sort of the tail gives a stable sort of the whole. */
  lemma SortStep(s: seq<Candidate>, t: seq<Candidate>)
    requires |s| > 0 && StableSortOf(t, s[1..])
    ensures forall v :: Filter(Insert(s[0], t), HasScore(v)) == Filter(s, HasScore(v))
  {
    forall v ensures Filter(Insert(s[0], t), HasScore(v)) == Filter(s, HasScore(v)) {
      InsertStable(s[0], t, v);
      FilterConcat([s[0]], t, HasScore(v));
      FilterConcat([s[0]], s[1..], HasScore(v));
      assert s == [s[0]] + s[1..];
    }
  }

  predicate DistinctCodes(s: seq<Candidate>) {
    forall i, j :: 0 <= i < j < |s| ==> s[i].code != s[j].code
  }

  /** Sorting keeps candidates with distinct codes distinct. */
  lemma {:induction false} SortKeepsDistinctCodes(s: seq<Candidate>)
    requires DistinctCodes(s)
    ensures DistinctCodes(SortDesc(s))
    decreases |s|
  {
    if |s| > 0 {
      var t := SortDesc(s[1..]);
      SortKeepsDistinctCodes(s[1..]);
      forall y | y in t ensures y.code != s[0].code {
        assert y in s[1..];
      }
      InsertKeepsDistinctCodes(s[0], t);
    }
  }

  lemma {:induction false} InsertKeepsDistinctCodes(x: Candidate, t: seq<Candidate>)
    requires SortedDesc(t) && DistinctCodes(t)
    requires forall y :: y in t ==> y.code != x.code
    ensures DistinctCodes(Insert(x, t))
    decreases |t|
  {
    if !(|t| == 0 || x.score >= t[0].score) {
      InsertKeepsDistinctCodes(x, t[1..]);
      var rest := Insert(x, t[1..]);
      forall y | y in rest ensures y.code != t[0].code {
        if y != x { assert y in t[1..]; }
      }
      assert Insert(x, t) == [t[0]] + rest;
    } else {
      forall y | y in t ensures y.code != x.code { }
    }
  }
}

=== FILE: seqs.dfy ===
/**
 Generic sequence operations that the matching code uses: order-preserving
 selection, first match, de-duplication keeping the first occurrence,
 substring search and Python's `str.replace`.
 */
module Seqs {
  import opened Optional

  /** The ascending list of indices `j` with `p(s[j])`. */
  function Positions<T>(s: seq<T>, p: T -> bool): (r: seq<nat>)
    ensures forall i :: 0 <= i < |r| ==> r[i] < |s| && p(s[r[i]])
    ensures forall i, j :: 0 <= i < j < |r| ==> r[i] < r[j]
    ensures forall j :: 0 <= j < |s| && p(s[j]) ==> j in r
    decreases |s|
  {
    if |s| == 0 then []
    else
      var rest := Positions(s[..|s| - 1], p);
      if p(s[|s| - 1]) then rest + [|s| - 1] else rest
  }

  /** The elements of `s` satisfying `p`, in their original order. */
  function Filter<T>(s: seq<T>, p: T -> bool): (r: seq<T>)
    ensures |r| <= |s|
    ensures forall i :: 0 <= i < |r| ==> p(r[i])
    decreases |s|
  {
    if |s| == 0 then []
    else Filter(s[..|s| - 1], p) + (if p(s[|s| - 1]) then [s[|s| - 1]] else [])
  }

  /** Filtering picks out exactly the elements at `Positions`, in order. */
  lemma {:induction false} FilterIsPositions<T>(s: seq<T>, p: T -> bool)
    ensures |Filter(s, p)| == |Positions(s, p)|
    ensures forall i :: 0 <= i < |Filter(s, p)| ==> Filter(s, p)[i] == s[Positions(s, p)[i]]
    decreases |s|
  {
    if |s| > 0 {
      var pre := s[..|s| - 1];
      FilterIsPositions(pre, p);
      var f, ps := Filter(pre, p), Positions(pre, p);
      var tail: seq<T> := if p(s[|s| - 1]) then [s[|s| - 1]] else [];
      var tailPos: seq<nat> := if p(s[|s| - 1]) then [|s| - 1] else [];
      assert Filter(s, p) == f + tail;
      assert Positions(s, p) == ps + tailPos;
      forall i | 0 <= i < |f|
        ensures Filter(s, p)[i] == s[Positions(s, p)[i]]
      {
        assert Filter(s, p)[i] == f[i] == pre[ps[i]];
        assert Positions(s, p)[i] == ps[i];
      }
    }
  }

  /** Filtering distributes over concatenation. */
  lemma {:induction false} FilterConcat<T>(a: seq<T>, b: seq<T>, p: T -> bool)
    ensures Filter(a + b, p) == Filter(a, p) + Filter(b, p)
    decreases |b|
  {
    if |b| > 0 {
      var b' := b[..|b| - 1];
      assert a + b' == (a + b)[..|a + b| - 1];
      FilterConcat(a, b', p);
    } else {
      assert a + b == a;
    }
  }

  /** Filtering a one-element sequence. */
  lemma FilterSingle<T>(x: T, p: T -> bool)
    ensures Filter([x], p) == if p(x) then [x] else []
  {
    assert [x][..0] == [];
  }

  /** Filtering a sequence with a given head. */
  lemma FilterCons<T>(x: T, s: seq<T>, p: T -> bool)
    ensures Filter([x] + s, p) == (if p(x) then [x] else []) + Filter(s, p)
  {
    FilterConcat([x], s, p);
    FilterSingle(x, p);
  }

  /** Two neighbours that `p` does not both keep can swap without changing what filtering keeps. */
  lemma FilterSwap<T>(a: T, b: T, rest: seq<T>, p: T -> bool)
    requires !(p(a) && p(b))
    ensures Filter([a] + ([b] + rest), p) == Filter([b] + ([a] + rest), p)
  {
    FilterCons(a, [b] + rest, p);
    FilterCons(b, rest, p);
    FilterCons(b, [a] + rest, p);
    FilterCons(a, rest, p);
    var fr := Filter(rest, p);
    if p(a) {
      assert Filter([a] + ([b] + rest), p) == [a] + fr;
    } else if p(b) {
      assert Filter([a] + ([b] + rest), p) == [b] + fr;
    } else {
      assert Filter([a] + ([b] + rest), p) == fr;
    }
  }

  /** Filtering keeps everything when every element satisfies `p`. */
  lemma {:induction false} FilterAllKept<T>(s: seq<T>, p: T -> bool)
    requires forall i :: 0 <= i < |s| ==> p(s[i])
    ensures Filter(s, p) == s
    decreases |s|
  {
    if |s| > 0 {
      FilterAllKept(s[..|s| - 1], p);
      assert s == s[..|s| - 1] + [s[|s| - 1]];
    }
  }

  /** An element survives filtering iff it occurs in the input and satisfies `p`. */
  lemma {:induction false} FilterMembership<T>(s: seq<T>, p: T -> bool, x: T)
    ensures x in Filter(s, p) <==> x in s && p(x)
    decreases |s|
  {
    if |s| > 0 {
      FilterMembership(s[..|s| - 1], p, x);
      assert s == s[..|s| - 1] + [s[|s| - 1]];
    }
  }

  /** Index of the first element satisfying `p`, if any. */
  function FirstIndex<T>(s: seq<T>, p: T -> bool): (r: Option<nat>)
    ensures r.Some? ==> r.value < |s| && p(s[r.value]) && forall j :: 0 <= j < r.value ==> !p(s[j])
    ensures r.None? ==> forall j :: 0 <= j < |s| ==> !p(s[j])
    decreases |s|
  {
    if |s| == 0 then None
    else if p(s[0]) then Some(0)
    else
      match FirstIndex(s[1..], p)
      case None => None
      case Some(k) => Some(k + 1)
  }

  predicate Distinct<T(==)>(s: seq<T>) {
    forall i, j :: 0 <= i < j < |s| ==> s[i] != s[j]
  }

  /** Index of the first occurrence of `x` in `s`. */
  function FirstAt<T(==)>(s: seq<T>, x: T): (k: nat)
    requires x in s
    ensures k < |s| && s[k] == x && x !in s[..k]
    decreases |s|
  {
    if s[0] == x then 0
    else
      var k := FirstAt(s[1..], x);
      assert s[..k + 1] == [s[0]] + s[1..][..k];
      k + 1
  }

  /** Any index holding `x` with no earlier `x` is the first occurrence. */
  lemma FirstAtUnique<T>(s: seq<T>, x: T, k: nat)
    requires k < |s| && s[k] == x && x !in s[..k]
    ensures FirstAt(s, x) == k
  {
    var f := FirstAt(s, x);
    assert forall j :: 0 <= j < k ==> s[..k][j] == s[j];
    assert forall j :: 0 <= j < f ==> s[..f][j] == s[j];
  }

  /** Appending an element does not move the first occurrence of anything already present. */
  lemma FirstAtSnoc<T>(s: seq<T>, x: T)
    ensures forall y :: y in s ==> FirstAt(s + [x], y) == FirstAt(s, y)
    ensures x !in s ==> FirstAt(s + [x], x) == |s|
  {
    forall y | y in s
      ensures FirstAt(s + [x], y) == FirstAt(s, y)
    {
      var k := FirstAt(s, y);
      assert (s + [x])[..k] == s[..k];
      FirstAtUnique(s + [x], y, k);
    }
    if x !in s {
      assert (s + [x])[..|s|] == s;
      FirstAtUnique(s + [x], x, |s|);
    }
  }

  /**
   Python's `list(dict.fromkeys(s))`: every value of `s` exactly once,
   ordered by where it first occurs in `s` (`DedupOrder`).
   */
  function Dedup<T(==)>(s: seq<T>): (r: seq<T>)
    ensures Distinct(r)
    ensures forall i :: 0 <= i < |s| ==> s[i] in r
    ensures forall i :: 0 <= i < |r| ==> r[i] in s
    ensures |r| <= |s|
    decreases |s|
  {
    if |s| == 0 then []
    else
      var d := Dedup(s[..|s| - 1]);
      if s[|s| - 1] in d then d else d + [s[|s| - 1]]
  }

  /** The values of `r` occur in `s`, and `r` lists them in the order of their first occurrences there. */
  predicate FirstOccurrenceOrder<T(==)>(s: seq<T>, r: seq<T>) {
    && (forall i :: 0 <= i < |r| ==> r[i] in s)
    && (forall i, j :: 0 <= i < j < |r| ==> FirstAt(s, r[i]) < FirstAt(s, r[j]))
  }

  /** `Dedup` lists the values in the order of their first occurrences. */
  lemma {:induction false} DedupOrder<T>(s: seq<T>)
    ensures FirstOccurrenceOrder(s, Dedup(s))
    decreases |s|
  {
    if |s| > 0 {
      var pre, x := s[..|s| - 1], s[|s| - 1];
      var d := Dedup(pre);
      DedupOrder(pre);
      DedupOrderStep(s, pre, x, d, Dedup(s));
    }
  }

  /** The order clause of `Dedup` survives one more element. */
  lemma DedupOrderStep<T>(s: seq<T>, pre: seq<T>, x: T, d: seq<T>, r: seq<T>)
    requires |s| > 0 && pre == s[..|s| - 1] && x == s[|s| - 1]
    requires forall i :: 0 <= i < |pre| ==> pre[i] in d
    requires FirstOccurrenceOrder(pre, d)
    requires r == if x in d then d else d + [x]
    ensures FirstOccurrenceOrder(s, r)
  {
    assert s == pre + [x];
    FirstAtSnoc(pre, x);
    forall i | 0 <= i < |r| ensures r[i] in s {
      if i < |d| { assert r[i] == d[i] && d[i] in pre; }
    }
    forall i, j | 0 <= i < j < |r| ensures FirstAt(s, r[i]) < FirstAt(s, r[j]) {
      assert r[i] == d[i] && d[i] in pre;
      if j < |d| {
        assert r[j] == d[j] && d[j] in pre;
      } else {
        assert r[j] == x && x !in pre;
      }
    }
  }

  /** Dedup keeps a value's first occurrence: the first element always stays first. */
  lemma {:induction false} DedupKeepsHead<T>(s: seq<T>)
    requires |s| > 0
    ensures |Dedup(s)| > 0 && Dedup(s)[0] == s[0]
    decreases |s|
  {
    if |s| > 1 {
      DedupKeepsHead(s[..|s| - 1]);
    }
  }

  /** Membership in `Dedup` both ways, for any element. */
  lemma DedupMembership<T>(s: seq<T>)
    ensures forall x :: x in Dedup(s) <==> x in s
  {
    forall x
      ensures x in Dedup(s) <==> x in s
    {
      if x in s {
        var i :| 0 <= i < |s| && s[i] == x;
      }
      if x in Dedup(s) {
        var i :| 0 <= i < |Dedup(s)| && Dedup(s)[i] == x;
      }
    }
  }

  predicate StartsWith<T(==)>(s: seq<T>, prefix: seq<T>) {
    |prefix| <= |s| && s[..|prefix|] == prefix
  }

  /** `needle` occurs in `hay` at offset `i`. */
  predicate OccursAt<T(==)>(hay: seq<T>, needle: seq<T>, i: int) {
    0 <= i && i + |needle| <= |hay| && hay[i..i + |needle|] == needle
  }

  /** Python's `needle in hay` for strings. */
  function Contains<T(==)>(hay: seq<T>, needle: seq<T>): (r: bool)
    ensures r <==> exists i :: OccursAt(hay, needle, i)
    decreases |hay|
  {
    if StartsWith(hay, needle) then
      assert OccursAt(hay, needle, 0);
      true
    else if |hay| == 0 then
      false
    else
      var r := Contains(hay[1..], needle);
      assert forall i :: OccursAt(hay[1..], needle, i) ==> OccursAt(hay, needle, i + 1);
      assert forall i :: OccursAt(hay, needle, i) && i > 0 ==> OccursAt(hay[1..], needle, i - 1);
      r
  }

  /** Every sequence contains itself. */
  lemma ContainsSelf<T>(s: seq<T>)
    ensures Contains(s, s)
  {
    assert OccursAt(s, s, 0);
  }

  /**
   Python's `s.replace(from, to)`: every non-overlapping occurrence, left to
   right. Text without an occurrence is returned unchanged, and equal-length
   replacement keeps the length.
   */
  function Replace<T(==)>(s: seq<T>, from: seq<T>, to: seq<T>): (r: seq<T>)
    requires |from| > 0
    ensures (forall i :: !OccursAt(s, from, i)) ==> r == s
    ensures |from| == |to| ==> |r| == |s|
    decreases |s|
  {
    if |s| < |from| then s
    else if s[..|from|] == from then
      assert OccursAt(s, from, 0);
      to + Replace(s[|from|..], from, to)
    else
      assert forall i :: OccursAt(s[1..], from, i) ==> OccursAt(s, from, i + 1);
      [s[0]] + Replace(s[1..], from, to)
  }

  /** An occurrence at the front is replaced, and replacement continues after it. */
  lemma ReplaceFront<T>(from: seq<T>, to: seq<T>, rest: seq<T>)
    requires |from| > 0
    ensures Replace(from + rest, from, to) == to + Replace(rest, from, to)
  {
    assert (from + rest)[..|from|] == from;
    assert (from + rest)[|from|..] == rest;
  }

  /** Text lacking some element of the pattern holds no occurrence of it. */
  lemma NoOccurrence<T>(s: seq<T>, from: seq<T>, x: T)
    requires x in from && x !in s
    ensures forall i :: !OccursAt(s, from, i)
  {
    var k :| 0 <= k < |from| && from[k] == x;
    forall i ensures !OccursAt(s, from, i) {
      if 0 <= i && i + |from| <= |s| {
        assert s[i..i + |from|][k] == s[i + k] && s[i + k] in s;
      }
    }
  }

  /** Replacing one element by another is a pointwise substitution. */
  lemma {:induction false} ReplaceSingle<T>(s: seq<T>, a: T, b: T)
    ensures |Replace(s, [a], [b])| == |s|
    ensures forall i :: 0 <= i < |s| ==> Replace(s, [a], [b])[i] == (if s[i] == a then b else s[i])
    decreases |s|
  {
    if |s| > 0 {
      ReplaceSingle(s[1..], a, b);
    }
  }

  /** After replacing `a` by a different `b`, no `a` is left. */
  lemma ReplaceSingleRemoves<T>(s: seq<T>, a: T, b: T)
    requires a != b
    ensures a !in Replace(s, [a], [b])
  {
    ReplaceSingle(s, a, b);
  }

  /** Python's slice `s[:n]`. */
  function Take<T>(s: seq<T>, n: nat): (r: seq<T>)
    ensures |r| <= n && |r| <= |s|
    ensures |s| >= n ==> |r| == n
    ensures r == s[..|r|]
  {
    if |s| <= n then s else s[..n]
  }
}

=== FILE: text.dfy ===
/**
 Character classes and string transforms used by the name normalisers and
 the region-code builders. Python's `str.strip` is modelled exactly (its
 whitespace set); `lower`, `upper`, `isalpha` and `isdigit` are modelled on
 ASCII only, and combining marks by the Unicode combining-mark blocks.
 */
module Text {
  import opened Seqs

  /** Python's `str.isspace` for one character. */
  predicate IsSpace(c: char) {
    var x := c as int;
    (9 <= x <= 13) || (28 <= x <= 32) || x == 0x85 || x == 0xA0 || x == 0x1680
    || (0x2000 <= x <= 0x200A) || x == 0x2028 || x == 0x2029 || x == 0x202F
    || x == 0x205F || x == 0x3000
  }

  predicate IsAscii(c: char) {
    (c as int) < 128
  }

  predicate IsUpperAscii(c: char) {
    'A' <= c <= 'Z'
  }

  predicate IsLowerAscii(c: char) {
    'a' <= c <= 'z'
  }

  /** `isalpha`, restricted to ASCII letters. */
  predicate IsLetter(c: char) {
    IsUpperAscii(c) || IsLowerAscii(c)
  }

  /** `isdigit`, restricted to ASCII digits. */
  predicate IsDigit(c: char) {
    '0' <= c <= '9'
  }

  /** `unicodedata.combining(c) != 0`, approximated by the combining-mark blocks. */
  predicate IsCombining(c: char) {
    var x := c as int;
    (0x0300 <= x <= 0x036F) || (0x1AB0 <= x <= 0x1AFF) || (0x1DC0 <= x <= 0x1DFF)
    || (0x20D0 <= x <= 0x20FF) || (0xFE20 <= x <= 0xFE2F)
  }

  function LowerChar(c: char): char {
    if IsUpperAscii(c) then (c as int + 32) as char else c
  }

  function UpperChar(c: char): char {
    if IsLowerAscii(c) then (c as int - 32) as char else c
  }

  /** `str.lower()`. */
  function Lower(s: string): (r: string)
    ensures |r| == |s|
    ensures forall i :: 0 <= i < |s| ==> r[i] == LowerChar(s[i])
  {
    seq(|s|, i requires 0 <= i < |s| => LowerChar(s[i]))
  }

  /** `str.upper()`. */
  function Upper(s: string): (r: string)
    ensures |r| == |s|
    ensures forall i :: 0 <= i < |s| ==> r[i] == UpperChar(s[i])
  {
    seq(|s|, i requires 0 <= i < |s| => UpperChar(s[i]))
  }

  /** Leading whitespace removed: `r` is a suffix of `s` and only spaces were dropped. */
  function StripLeft(s: string): (r: string)
    ensures |r| <= |s| && r == s[|s| - |r|..]
    ensures forall i :: 0 <= i < |s| - |r| ==> IsSpace(s[i])
    ensures |r| > 0 ==> !IsSpace(r[0])
    decreases |s|
  {
    if |s| > 0 && IsSpace(s[0]) then StripLeft(s[1..]) else s
  }

  /** Trailing whitespace removed: `r` is a prefix of `s` and only spaces were dropped. */
  function StripRight(s: string): (r: string)
    ensures |r| <= |s| && r == s[..|r|]
    ensures forall i :: |r| <= i < |s| ==> IsSpace(s[i])
    ensures |r| > 0 ==> !IsSpace(r[|r| - 1])
    decreases |s|
  {
    if |s| > 0 && IsSpace(s[|s| - 1]) then StripRight(s[..|s| - 1]) else s
  }

  /** A string with no whitespace at either end. */
  predicate Trimmed(s: string) {
    |s| == 0 || (!IsSpace(s[0]) && !IsSpace(s[|s| - 1]))
  }

  /** Every character of `s` outside the window `[i, j)` is whitespace. */
  predicate SpaceOutside(s: string, i: int, j: int) {
    forall k :: 0 <= k < |s| && !(i <= k < j) ==> IsSpace(s[k])
  }

  /** `str.strip()`: a window of `s` with only whitespace around it and none at its ends. */
  function Strip(s: string): (r: string)
    ensures Trimmed(r)
    ensures |r| <= |s|
    ensures exists i, j :: 0 <= i <= j <= |s| && r == s[i..j] && SpaceOutside(s, i, j)
  {
    var l := StripLeft(s);
    var r := StripRight(l);
    var i := |s| - |l|;
    assert r == s[i..i + |r|];
    assert SpaceOutside(s, i, i + |r|);
    r
  }

  /** The window `Strip` keeps is the only trimmed one with whitespace around it. */
  lemma StripUnique(s: string, t: string, i: int, j: int)
    requires 0 <= i <= j <= |s| && t == s[i..j] && SpaceOutside(s, i, j)
    requires Trimmed(t)
    ensures Strip(s) == t
  {
    var r := Strip(s);
    var i0, j0 :| 0 <= i0 <= j0 <= |s| && r == s[i0..j0] && SpaceOutside(s, i0, j0);
    WindowEnds(s, t, i, j);
    WindowEnds(s, r, i0, j0);
    if |t| > 0 && |r| > 0 {
      assert i == i0 && j == j0;
    }
  }

  /** A non-empty trimmed window starts and ends on a non-space character. */
  lemma WindowEnds(s: string, t: string, i: int, j: int)
    requires 0 <= i <= j <= |s| && t == s[i..j] && Trimmed(t)
    ensures |t| > 0 ==> !IsSpace(s[i]) && !IsSpace(s[j - 1])
  {
    assert |t| > 0 ==> t[0] == s[i] && t[|t| - 1] == s[j - 1];
  }

  /** Stripping only removes characters, so any property of all characters survives it. */
  lemma StripKeeps(s: string, p: char -> bool)
    requires forall i :: 0 <= i < |s| ==> p(s[i])
    ensures forall i :: 0 <= i < |Strip(s)| ==> p(Strip(s)[i])
  {
    var i, j := StripWindow(s);
    SliceKeeps(s, i, j, p);
  }

  /** A property of every character holds of every character of a slice. */
  lemma SliceKeeps(s: string, i: int, j: int, p: char -> bool)
    requires 0 <= i <= j <= |s|
    requires forall k :: 0 <= k < |s| ==> p(s[k])
    ensures forall k :: 0 <= k < j - i ==> p(s[i..j][k])
  {
    forall k | 0 <= k < j - i ensures p(s[i..j][k]) {
      assert s[i..j][k] == s[i + k];
    }
  }

  /** The bounds of the window `Strip` keeps. */
  lemma StripWindow(s: string) returns (i: int, j: int)
    ensures 0 <= i <= j <= |s| && Strip(s) == s[i..j]
  {
    i, j :| 0 <= i <= j <= |s| && Strip(s) == s[i..j] && SpaceOutside(s, i, j);
  }

  lemma StripTrimmed(s: string)
    requires Trimmed(s)
    ensures Strip(s) == s
  {
    StripUnique(s, s, 0, |s|);
  }

  /** Lower-casing does not change which characters are spaces. */
  lemma LowerKeepsTrimmed(s: string)
    requires Trimmed(s)
    ensures Trimmed(Lower(s))
  {
  }

  predicate NoUpper(s: string) {
    forall i :: 0 <= i < |s| ==> !IsUpperAscii(s[i])
  }

  predicate AllAscii(s: string) {
    forall i :: 0 <= i < |s| ==> IsAscii(s[i])
  }

  /** Lower-casing leaves no upper-case letter and keeps ASCII text ASCII. */
  lemma LowerFacts(s: string)
    ensures NoUpper(Lower(s))
    ensures AllAscii(s) ==> AllAscii(Lower(s))
  {
    var r := Lower(s);
    forall i | 0 <= i < |r| ensures !IsUpperAscii(r[i]) && (IsAscii(s[i]) ==> IsAscii(r[i])) {
      assert r[i] == LowerChar(s[i]);
    }
  }

  /** Text with no upper-case letter is its own lower-case form. */
  lemma LowerIdentity(s: string)
    requires NoUpper(s)
    ensures Lower(s) == s
  {
    assert forall i :: 0 <= i < |s| ==> Lower(s)[i] == s[i];
  }

  predicate NoLower(s: string) {
    forall i :: 0 <= i < |s| ==> !IsLowerAscii(s[i])
  }

  /** Upper-casing leaves no lower-case letter. */
  lemma UpperFacts(s: string)
    ensures NoLower(Upper(s))
  {
    var r := Upper(s);
    forall i | 0 <= i < |r| ensures !IsLowerAscii(r[i]) {
      assert r[i] == UpperChar(s[i]);
    }
  }

  /** Text with no lower-case letter is its own upper-case form. */
  lemma UpperIdentity(s: string)
    requires NoLower(s)
    ensures Upper(s) == s
  {
    assert forall i :: 0 <= i < |s| ==> Upper(s)[i] == s[i];
  }

  /** Characters of `s` that are letters, in order. */
  function Letters(s: string): (r: string)
    ensures forall i :: 0 <= i < |r| ==> IsLetter(r[i])
  {
    var r := Filter(s, IsLetter);
    FilterIsPositions(s, IsLetter);
    r
  }

  /** `"".join(c for c in s if c.isalpha())[:2].upper()`: a two-letter abbreviation. */
  function Abbrev(s: string): (r: string)
    ensures |r| <= 2
    ensures |r| == (if |Letters(s)| < 2 then |Letters(s)| else 2)
    ensures forall i :: 0 <= i < |r| ==> IsUpperAscii(r[i]) && r[i] == UpperChar(Letters(s)[i])
  {
    Upper(Take(Letters(s), 2))
  }

  /** The abbreviation is empty exactly when the text has no letter. */
  lemma AbbrevEmpty(s: string)
    ensures Abbrev(s) == [] <==> forall i :: 0 <= i < |s| ==> !IsLetter(s[i])
  {
    FilterIsPositions(s, IsLetter);
    if Abbrev(s) == [] {
      forall i | 0 <= i < |s|
        ensures !IsLetter(s[i])
      {
        FilterMembership(s, IsLetter, s[i]);
      }
    } else {
      FilterMembership(s, IsLetter, Letters(s)[0]);
    }
  }
}

=== FILE: thinkhazard.dfy ===
/**
 The administrative-division matcher over the three hazard-report tables
 (ADM0 countries, ADM1 regions, ADM2 districts). Tables are given as
 values; fetching and caching them is outside the model.
 */
module ThinkHazard {
  import opened Optional
  import opened Seqs
  import opened Text

  /** One table row: column name to text cell. A column absent from the map is a missing cell. */
  type Row = map<string, string>

  /** A table or result frame: its column names and its rows. */
  datatype Table = Table(columns: set<string>, rows: seq<Row>)

  /** A result frame; the empty DataFrame is `Table({}, [])`. */
  type Frame = Table

  /** A level search either yields a frame or fails selecting its code column (pandas KeyError). */
  datatype Search = Hits(frame: Frame) | KeyError(column: string)

  /** One level of the cascade: its table, level label and code/name column names. */
  datatype LevelSpec = LevelSpec(table: Table, level: string, codeCol: string, nameCol: string)

  const EmptyFrame: Frame := Table({}, [])

  /** Columns carried over from a hit row when the table has them. */
  const Extras: set<string> := {"ISO3166_a3", "ISO3166_a2", "ADM0_NAME", "ADM1_NAME", "ADM2_NAME", "ADM0_CODE"}

  function Cell(row: Row, col: string): Option<string> {
    if col in row then Some(row[col]) else None
  }

  /**
   `_norm`: a missing (non-text) cell becomes "", otherwise non-ASCII
   characters are dropped, then the text is trimmed and lower-cased.
   */
  function Norm(s: Option<string>): (r: string)
    ensures s.None? ==> r == ""
    ensures Trimmed(r) && NoUpper(r) && AllAscii(r)
  {
    match s
    case None => ""
    case Some(t) =>
      var a := Filter(t, IsAscii);
      StripKeeps(a, IsAscii);
      var st := Strip(a);
      LowerKeepsTrimmed(st);
      LowerFacts(st);
      Lower(st)
  }

  /** Normalising twice is the same as normalising once. */
  lemma NormIdempotent(s: Option<string>)
    ensures Norm(Some(Norm(s))) == Norm(s)
  {
    var n := Norm(s);
    FilterAllKept(n, IsAscii);
    StripTrimmed(n);
    LowerIdentity(n);
  }

  /** An ASCII text already trimmed and without upper-case letters normalises to itself. */
  lemma NormFixed(t: string)
    requires Trimmed(t) && NoUpper(t) && AllAscii(t)
    ensures Norm(Some(t)) == t
  {
    FilterAllKept(t, IsAscii);
    StripTrimmed(t);
    LowerIdentity(t);
  }

  /** Whether `row` matches the normalised query, by equality or by containment. */
  predicate Hit(row: Row, nameCol: string, q: string, exact: bool) {
    var n := Norm(Cell(row, nameCol));
    if exact then n == q else Contains(n, q)
  }

  function Matcher(nameCol: string, q: string, exact: bool): Row -> bool {
    row => Hit(row, nameCol, q, exact)
  }

  /** The hit row as returned: selected columns only, with `level` set. */
  function Tag(row: Row, keep: set<string>, level: string): Row {
    (map k | k in keep && k in row && k != "level" :: row[k])["level" := level]
  }

  function KeepColumns(spec: LevelSpec): set<string> {
    {spec.codeCol, spec.nameCol, "level"} + (Extras * spec.table.columns)
  }

  function TagAll(hit: seq<Row>, keep: set<string>, level: string): (r: seq<Row>)
    ensures |r| == |hit|
    ensures forall i :: 0 <= i < |hit| ==> r[i] == Tag(hit[i], keep, level)
  {
    seq(|hit|, i requires 0 <= i < |hit| => Tag(hit[i], keep, level))
  }

  /**
   `_search_level`. Without the name column the result is empty; otherwise
   it is exactly the matching rows in table order, each tagged with the
   level; selecting a code column the table lacks raises.
   */
  function SearchLevel(spec: LevelSpec, q: string, exact: bool): (r: Search)
    ensures spec.nameCol !in spec.table.columns ==> r == Hits(EmptyFrame)
    ensures r.KeyError? ==> spec.codeCol !in spec.table.columns && r.column == spec.codeCol
    ensures spec.nameCol in spec.table.columns && spec.codeCol in spec.table.columns ==> r.Hits?
    ensures r.KeyError? ==> |Positions(spec.table.rows, Matcher(spec.nameCol, q, exact))| > 0
    ensures (&& spec.nameCol in spec.table.columns && spec.codeCol !in spec.table.columns
             && |Positions(spec.table.rows, Matcher(spec.nameCol, q, exact))| > 0) ==> r == KeyError(spec.codeCol)
    ensures r.Hits? && |r.frame.rows| == 0 ==> r == Hits(EmptyFrame)
    ensures r.Hits? && spec.nameCol in spec.table.columns ==>
      var pos := Positions(spec.table.rows, Matcher(spec.nameCol, q, exact));
      && |r.frame.rows| == |pos|
      && forall i :: 0 <= i < |pos| ==>
           r.frame.rows[i] == Tag(spec.table.rows[pos[i]], KeepColumns(spec), spec.level)
    ensures r.Hits? ==> forall i :: 0 <= i < |r.frame.rows| ==>
      "level" in r.frame.rows[i] && r.frame.rows[i]["level"] == spec.level
  {
    if spec.nameCol !in spec.table.columns then Hits(EmptyFrame)
    else
      var p := Matcher(spec.nameCol, q, exact);
      var hit := Filter(spec.table.rows, p);
      FilterIsPositions(spec.table.rows, p);
      if |hit| == 0 then Hits(EmptyFrame)
      else if spec.codeCol !in spec.table.columns then KeyError(spec.codeCol)
      else Hits(Table(KeepColumns(spec), TagAll(hit, KeepColumns(spec), spec.level)))
  }

  /** Some row of the level matches (the table having its name column). */
  predicate HasHit(spec: LevelSpec, q: string, exact: bool) {
    && spec.nameCol in spec.table.columns
    && |Positions(spec.table.rows, Matcher(spec.nameCol, q, exact))| > 0
  }

  /** `HasHit` holds exactly when some row of the table matches. */
  lemma HasHitWitness(spec: LevelSpec, q: string, exact: bool)
    ensures HasHit(spec, q, exact) <==>
      spec.nameCol in spec.table.columns &&
      exists i :: 0 <= i < |spec.table.rows| && Hit(spec.table.rows[i], spec.nameCol, q, exact)
  {
    var pos := Positions(spec.table.rows, Matcher(spec.nameCol, q, exact));
    if |pos| > 0 {
      assert Matcher(spec.nameCol, q, exact)(spec.table.rows[pos[0]]);
    }
    if exists i :: 0 <= i < |spec.table.rows| && Hit(spec.table.rows[i], spec.nameCol, q, exact) {
      var i :| 0 <= i < |spec.table.rows| && Hit(spec.table.rows[i], spec.nameCol, q, exact);
      assert Matcher(spec.nameCol, q, exact)(spec.table.rows[i]);
      assert i in pos;
    }
  }

  /** A level search yields rows (or raises) exactly when the level has a hit. */
  lemma SearchLevelNonEmpty(spec: LevelSpec, q: string, exact: bool)
    ensures HasHit(spec, q, exact) <==> SearchLevel(spec, q, exact) != Hits(EmptyFrame)
  {
  }

  /** The levels in cascade order: districts, then regions, then countries. */
  function Levels(adm0: Table, adm1: Table, adm2: Table): seq<LevelSpec> {
    [ LevelSpec(adm2, "ADM2", "ADM2_CODE", "ADM2_NAME"),
      LevelSpec(adm1, "ADM1", "ADM1_CODE", "ADM1_NAME"),
      LevelSpec(adm0, "ADM0", "ADM0_CODE", "ADM0_NAME") ]
  }

  /** One pass over the levels: the first level search that raises or yields rows. */
  function Cascade(levels: seq<LevelSpec>, q: string, exact: bool): Search
    decreases |levels|
  {
    if |levels| == 0 then Hits(EmptyFrame)
    else
      var r := SearchLevel(levels[0], q, exact);
      if r == Hits(EmptyFrame) then Cascade(levels[1..], q, exact) else r
  }

  /** Index of the first level with a hit in the given mode. */
  function FirstHitLevel(levels: seq<LevelSpec>, q: string, exact: bool): (r: Option<nat>)
    ensures r.Some? ==> r.value < |levels| && HasHit(levels[r.value], q, exact)
    ensures r.Some? ==> forall j :: 0 <= j < r.value ==> !HasHit(levels[j], q, exact)
    ensures r.None? ==> forall j :: 0 <= j < |levels| ==> !HasHit(levels[j], q, exact)
  {
    FirstIndex(levels, LevelTest(q, exact))
  }

  function LevelTest(q: string, exact: bool): LevelSpec -> bool {
    spec => HasHit(spec, q, exact)
  }

  /**
   Reference answer: the first level (in cascade order) with an exact hit,
   else the first with a substring hit, with the mode that found it.
   */
  function Winner(levels: seq<LevelSpec>, q: string): Option<(LevelSpec, bool)> {
    match FirstHitLevel(levels, q, true)
    case Some(i) => Some((levels[i], true))
    case None =>
      match FirstHitLevel(levels, q, false)
      case Some(i) => Some((levels[i], false))
      case None => None
  }

  /** One cascade pass returns the search of the first level with a hit. */
  lemma {:induction false} CascadeFirstHit(levels: seq<LevelSpec>, q: string, exact: bool)
    ensures FirstHitLevel(levels, q, exact).None? ==> Cascade(levels, q, exact) == Hits(EmptyFrame)
    ensures FirstHitLevel(levels, q, exact).Some? ==>
      Cascade(levels, q, exact) == SearchLevel(levels[FirstHitLevel(levels, q, exact).value], q, exact)
    decreases |levels|
  {
    if |levels| > 0 {
      SearchLevelNonEmpty(levels[0], q, exact);
      if !HasHit(levels[0], q, exact) {
        CascadeFirstHit(levels[1..], q, exact);
      }
    }
  }

  /**
   `find_division`: the exact pass over ADM2, ADM1, ADM0, then the
   substring pass in the same order; the first level with a hit answers.
   */
  function FindDivision(adm0: Table, adm1: Table, adm2: Table, name: Option<string>): (r: Search)
    ensures var w := Winner(Levels(adm0, adm1, adm2), Norm(name));
      match w
      case None => r == Hits(EmptyFrame)
      case Some((spec, exact)) => r == SearchLevel(spec, Norm(name), exact)
  {
    var q := Norm(name);
    var levels := Levels(adm0, adm1, adm2);
    CascadeFirstHit(levels, q, true);
    CascadeFirstHit(levels, q, false);
    var r := Cascade(levels, q, true);
    if r == Hits(EmptyFrame) then Cascade(levels, q, false) else r
  }

  /** An exact hit is also a substring hit. */
  lemma ExactImpliesSubstring(spec: LevelSpec, q: string)
    requires HasHit(spec, q, true)
    ensures HasHit(spec, q, false)
  {
    HasHitWitness(spec, q, true);
    var i :| 0 <= i < |spec.table.rows| && Hit(spec.table.rows[i], spec.nameCol, q, true);
    ContainsSelf(q);
    HasHitWitness(spec, q, false);
  }

  /**
   An exact hit anywhere means the exact pass answers, from the first level
   with one; the substring pass only answers when no level has an exact hit.
   */
  lemma ExactPassWins(adm0: Table, adm1: Table, adm2: Table, q: string)
    ensures var levels := Levels(adm0, adm1, adm2);
      (exists i :: 0 <= i < 3 && HasHit(levels[i], q, true)) <==>
      (Winner(levels, q).Some? && Winner(levels, q).value.1)
  {
  }

  /** `find_division` answers nothing exactly when no level has a substring hit. */
  lemma FindDivisionEmpty(adm0: Table, adm1: Table, adm2: Table, name: Option<string>)
    ensures var levels := Levels(adm0, adm1, adm2);
      FindDivision(adm0, adm1, adm2, name) == Hits(EmptyFrame) <==>
      forall i :: 0 <= i < 3 ==> !HasHit(levels[i], Norm(name), false)
  {
    var levels := Levels(adm0, adm1, adm2);
    var q := Norm(name);
    var r := FindDivision(adm0, adm1, adm2, name);
    var exactHit := FirstHitLevel(levels, q, true);
    var subHit := FirstHitLevel(levels, q, false);
    if exactHit.Some? {
      var i := exactHit.value;
      SearchLevelNonEmpty(levels[i], q, true);
      ExactImpliesSubstring(levels[i], q);
      assert r != Hits(EmptyFrame);
    } else if subHit.Some? {
      SearchLevelNonEmpty(levels[subHit.value], q, false);
      assert r != Hits(EmptyFrame);
    } else {
      assert r == Hits(EmptyFrame);
    }
  }

  /** The columns `adm0_iso3_by_name` reads: the name to compare and the ISO3 to return. */
  predicate NameTable(adm0: Table) {
    {"ADM0_NAME", "ISO3166_a3"} <= adm0.columns
  }

  /** The columns `adm0_iso2_by_iso3` reads: the ISO3 to compare and the ISO2 to return. */
  predicate IsoTable(adm0: Table) {
    {"ISO3166_a3", "ISO3166_a2"} <= adm0.columns
  }

  /** A country table both lookups can read (pandas raises on a missing column). */
  predicate CountryTable(adm0: Table) {
    NameTable(adm0) && IsoTable(adm0)
  }

  predicate NameIs(row: Row, name: string) {
    "ADM0_NAME" in row && Lower(row["ADM0_NAME"]) == Lower(name)
  }

  predicate Iso3Is(row: Row, iso3: string) {
    "ISO3166_a3" in row && Upper(row["ISO3166_a3"]) == Upper(iso3)
  }

  /** `adm0_iso3_by_name`: the ISO3 of the first country whose name matches case-insensitively. */
  function Iso3ByName(adm0: Table, name: string): (r: Option<string>)
    requires NameTable(adm0)
    ensures (forall i :: 0 <= i < |adm0.rows| ==> !NameIs(adm0.rows[i], name)) ==> r == None
    ensures forall i :: 0 <= i < |adm0.rows| && NameIs(adm0.rows[i], name)
                        && (forall j :: 0 <= j < i ==> !NameIs(adm0.rows[j], name)) ==>
                        r == Cell(adm0.rows[i], "ISO3166_a3")
    ensures r.Some? ==> exists i :: 0 <= i < |adm0.rows| && NameIs(adm0.rows[i], name) && r == Cell(adm0.rows[i], "ISO3166_a3")
  {
    match FirstIndex(adm0.rows, row => NameIs(row, name))
    case None => None
    case Some(i) => Cell(adm0.rows[i], "ISO3166_a3")
  }

  /** `adm0_iso2_by_iso3`: the ISO2 of the first country whose ISO3 matches case-insensitively. */
  function Iso2ByIso3(adm0: Table, iso3: string): (r: Option<string>)
    requires IsoTable(adm0)
    ensures (forall i :: 0 <= i < |adm0.rows| ==> !Iso3Is(adm0.rows[i], iso3)) ==> r == None
    ensures forall i :: 0 <= i < |adm0.rows| && Iso3Is(adm0.rows[i], iso3)
                        && (forall j :: 0 <= j < i ==> !Iso3Is(adm0.rows[j], iso3)) ==>
                        r == Cell(adm0.rows[i], "ISO3166_a2")
  {
    match FirstIndex(adm0.rows, row => Iso3Is(row, iso3))
    case None => None
    case Some(i) => Cell(adm0.rows[i], "ISO3166_a2")
  }
}
